=== FILE: README.md ===
# AquaLevel integration model

A Dafny model of the decision logic of the AquaLevel Home Assistant
integration, which talks HTTP to an ultrasonic water-tank monitor. Every HTTP
request is replaced by an abstract outcome (`Http.Outcome`: a response with a
status and a JSON or undecodable body, a transport error, or some other
exception). What is left is a set of pure functions, and this project proves
properties about them.

The modules follow the integration's files:

- `Coordinator` (`__init__.py`). The poll that merges `/tank-data` and
  `/settings` into one mapping with per-key defaults and carries settings
  forward. The settings write `async_update_settings`, which renames
  arguments, sends booleans as 1/0 and builds `/set?k=v&...`. The calibration
  command `async_calibrate`.
- `Number`, `Sensor`, `BinarySensor`, `Switch` (the entity platforms).
  Availability, displayed values, alert thresholds, and the write each entity
  issues.
- `ConfigFlow` (`config_flow.py`). The manual user step, the zeroconf step
  and its confirmation, and `_validate_input`'s probe-with-fallback.
- `Service` (`service.py`). The calibrate service's schema, its fan-out to
  every registered coordinator, and service registration and removal.
- Support modules:
  - `Json`: JSON values, with Python truthiness, `dict.get` and `<=`.
  - `Http`: request outcomes.
  - `Strings`: `startswith`, `replace`, `join` and `split`.
  - `Query`: the `k=v&k=v` builder and a splitting reader that serves as its
    inverse.
  - `Wrappers`: `Option`.

Two parts of the Python code are turned into parameters:

- `str()` on values placed in a query is the parameter `render`.
- The coordinator's previously held data is `Option<Data>`. `None` means no
  successful update yet.

Entities read the mapping the coordinator holds after a poll
(`Coordinator.Held`). Home Assistant replaces that mapping only when the
update returns, so a failed poll leaves the previous mapping in place. The
`available` overrides test only for keys in that mapping, and never whether
the last update succeeded. So after the device drops off the network, every
entity stays available with its last values
(`BinarySensor.StaleAlertsStayAvailable`).

## Model

| member | source | states |
|---|---|---|
| Json.PyLe | custom_components/aqualevel/binary_sensor.py:105-108 | Python's `<=` on JSON values. It compares numbers (bool counting as 0/1) by value, compares two strings by code point (as `StrLe`), and raises TypeError in every other case. |
| Coordinator.Fetch | custom_components/aqualevel/__init__.py:167-197 | A fetch raises only for an exception outside the caught ones. A non-None result is the body of a 200 answer. Any other status gives None. |
| Coordinator.Section | custom_components/aqualevel/__init__.py:136-158 | A falsy fetch result adds nothing. A dict adds exactly the listed keys, each taken from the dict or its default. A truthy non-dict makes `.get` raise. |
| Coordinator.UpdateData | custom_components/aqualevel/__init__.py:114-165 | The update succeeds exactly when it returns data. It fails when a fetch raises or both fetches give None. On success every key is one of the 15 known keys. Without tank data, none of the reading keys is present. |
| Coordinator.UpdateDataAsWritten | custom_components/aqualevel/__init__.py:126 | The code as written. It matches `UpdateData` once data exists. Before the first success, a poll with tank data but no settings fails with TypeError. |
| Coordinator.ReadingsReported | custom_components/aqualevel/__init__.py:136-142 | A successful update with a non-empty tank object holds all four readings. Each is the device's value or 0. |
| Coordinator.SettingsReported | custom_components/aqualevel/__init__.py:145-158 | A successful update with a non-empty settings object holds all eleven settings. Each is the device's value or its listed default. |
| Coordinator.MergeBoth | custom_components/aqualevel/__init__.py:133-161 | Both endpoints answering with non-empty objects gives a successful update with exactly the 15 known keys, each from its own endpoint or its default. |
| Coordinator.SettingsCarriedForward | custom_components/aqualevel/__init__.py:126-130 | Settings down and previous data holding `tankHeight`, with any tank outcome. The update succeeds exactly when the tank side can be used, that is a non-null answer that is falsy or a dict. Its settings then equal the previous values, or their defaults. |
| Coordinator.ReadingsNeverCarried | custom_components/aqualevel/__init__.py:133-142 | Tank down and settings answering a non-empty object gives exactly the settings keys. Earlier readings never survive. (An empty settings object `{}` adds no keys.) |
| Coordinator.SettingsSurviveOutage | custom_components/aqualevel/__init__.py:126-130 | Over two polls: the first poll has both endpoints answering non-empty objects, and the second has settings down. The second poll keeps every setting the first produced, whatever usable tank answer it gets. |
| Coordinator.FirstRefreshWithoutSettings | custom_components/aqualevel/__init__.py:121-142 | The first poll with tank up and settings down. As written it fails. Corrected, it yields exactly the readings. |
| Coordinator.Recognised | custom_components/aqualevel/__init__.py:222-223 | The table entries whose Home Assistant name was passed: all of them, only them, each once, in increasing table order. |
| Coordinator.EncodeParams | custom_components/aqualevel/__init__.py:207-230 | One pair per recognised argument, in `param_map` order. Each key is the device name and each value has booleans as 1/0. The result is empty exactly when no argument is recognised. |
| Coordinator.EncodeSingle | custom_components/aqualevel/__init__.py:222-230 | A single recognised argument becomes exactly one renamed pair. |
| Coordinator.UpdateSettings | custom_components/aqualevel/__init__.py:232-256 | No request and False exactly when nothing is recognised. Otherwise one request to `http://{host}/set?` followed by the pairs joined with `&`. True only for a sent request answered 200. |
| Coordinator.SettingsQueryReadsBack | custom_components/aqualevel/__init__.py:236-238 | Splitting the write's query on `&` and then `=` recovers exactly the encoded pairs in order, provided none of the values passed renders with `&`. |
| Coordinator.SingleWriteUrl | custom_components/aqualevel/__init__.py:222-238 | A one-argument write requests `/set?<device name>=<value>`. |
| Coordinator.Calibrate | custom_components/aqualevel/__init__.py:258-280 | A type other than "empty" or "full" gives no request and False. A valid type requests `/calibrate?type=<type>`. True only on a 200 answer. |
| Coordinator.CalibrateReadsBack | custom_components/aqualevel/__init__.py:264 | The calibration query is the single pair `type=<kind>` and reads back as exactly that pair. |
| Query.ParseBuild | custom_components/aqualevel/__init__.py:237-238 | For a non-empty list of pairs with plain keys and no `&` in values, reading the joined query back gives the same list. |
| Number.Available | custom_components/aqualevel/number.py:79-82 | Available exactly when there is data holding the entity's key. Such data is never empty. |
| Number.NativeValue | custom_components/aqualevel/number.py:84-89 | None for missing or empty data. Otherwise the stored value when the key is present, and None when it is absent. |
| Number.ParamMapsBack | custom_components/aqualevel/number.py:96-272 | For each of the ten numbers, `param_map` sends its write parameter to the key it reads. |
| Number.ParamMapCoversNumbers | custom_components/aqualevel/__init__.py:207-219 | The device names in `param_map` are exactly the ten number keys plus `alertsEnabled`. |
| Number.BoundsSane | custom_components/aqualevel/number.py:96-272 | Every one of the ten numbers has minimum at most maximum and a positive step. |
| Number.SetValueWritesOwnKey | custom_components/aqualevel/number.py:91-93 | Setting a value encodes exactly one pair: the entity's own key with the device form of the value. |
| Number.NumberKeysAreSettings | custom_components/aqualevel/number.py:96-272 | Every number key is one of the settings the merge emits. |
| Number.AvailableAfterSettings | custom_components/aqualevel/number.py:79-89 | After a successful update with a non-empty settings object, every number is available. Each shows the device's setting or its default. |
| Number.UniqueIdsDistinct | custom_components/aqualevel/number.py:59 | The ten numbers of one host have distinct unique IDs. |
| Sensor.Available | custom_components/aqualevel/sensor.py:79-82 | Available exactly when there is data holding the entity's key. Such data is never empty. |
| Sensor.NativeValue | custom_components/aqualevel/sensor.py:84-89 | The stored value when the key is present, None otherwise. |
| Sensor.ReadsLikeNumber | custom_components/aqualevel/sensor.py:79-89 | A sensor and a number with the same key agree on availability and value, on any data. |
| Sensor.SensorKeysAreReadings | custom_components/aqualevel/sensor.py:100-132 | The three sensor keys are readings the merge emits. |
| Sensor.AvailableAfterTankData | custom_components/aqualevel/sensor.py:79-89 | After a successful update with a non-empty tank object, every sensor is available. Each shows the device's reading or 0. |
| Sensor.UniqueIdsDistinct | custom_components/aqualevel/sensor.py:57 | Sensor unique IDs are pairwise distinct, and distinct from the numbers' IDs. |
| BinarySensor.Available | custom_components/aqualevel/binary_sensor.py:63-80 | The key-by-name checks amount to: non-empty data holding `percentage` and the alert's own threshold. When available, `is_on` compares the stored values and never the fallbacks. |
| BinarySensor.IsOn | custom_components/aqualevel/binary_sensor.py:95-136 | Both alerts are off without data or when `alertsEnabled` is falsy. |
| BinarySensor.OnIffPastThreshold | custom_components/aqualevel/binary_sensor.py:102-136 | On non-empty data (empty data keeps both alerts off), with alerts enabled (a missing switch counts as on) and numeric values: the low alert is on exactly when the percentage is at or below the low threshold, and the high alert exactly when it is at or above the high threshold. Defaults are 0, 10 and 90. |
| BinarySensor.NeverBothOn | custom_components/aqualevel/binary_sensor.py:108-136 | When the low threshold is below the high one, the two alerts are never on together. |
| BinarySensor.AvailableAfterMerge | custom_components/aqualevel/binary_sensor.py:63-80 | After an update in which both endpoints answer non-empty objects, both alerts are available. |
| BinarySensor.UnavailableWithoutReadings | custom_components/aqualevel/binary_sensor.py:70-72 | A successful update without tank data leaves both alerts unavailable, whatever the settings endpoint gave and whatever the previous data held. |
| Coordinator.FailedPollKeepsData | custom_components/aqualevel/__init__.py:162-165 | A failed update leaves the mapping entities read exactly as it was. |
| BinarySensor.FailedPollKeepsAlerts | custom_components/aqualevel/binary_sensor.py:63-80 | After a failed poll, each alert's availability and state are those of the previous mapping. |
| BinarySensor.StaleAlertsStayAvailable | custom_components/aqualevel/binary_sensor.py:63-80 | After a good poll, a poll with both requests failing fails the update, yet both alerts stay available on the old data. |
| Switch.Available | custom_components/aqualevel/switch.py:50-54 | Available exactly when there is data holding `alertsEnabled`. Then the switch is on exactly when that stored value is truthy. |
| Switch.IsOn | custom_components/aqualevel/switch.py:56-61 | Off without data. With data, on exactly when the alert sensors take alerts as enabled. A missing `alertsEnabled` counts as on. |
| Switch.TurnWrites | custom_components/aqualevel/switch.py:63-76 | Turning on requests `/set?alertsEnabled=1` and turning off requests `/set?alertsEnabled=0`. |
| Switch.ReadsBackWrite | custom_components/aqualevel/switch.py:50-61 | Once a poll reports the written value, the switch is available and shows the requested state. Turning it off silences both alerts. |
| Switch.OffSilencesAlerts | custom_components/aqualevel/switch.py:56-61 | With data present and the switch off, both alerts are off. |
| ConfigFlow.SettingsVerdict | custom_components/aqualevel/config_flow.py:141-150 | The settings probe passes exactly on a 200 JSON answer. Only an uncaught exception is not `CannotConnect`. |
| ConfigFlow.Validate | custom_components/aqualevel/config_flow.py:121-155 | Tank-data is probed first, then possibly settings, at the host's URLs. On success the title is the name or "AquaLevel". |
| ConfigFlow.SettingsProbedIff | custom_components/aqualevel/config_flow.py:139-142 | Settings is probed exactly when tank-data failed with a timeout, client error or undecodable body. |
| ConfigFlow.ValidIff | custom_components/aqualevel/config_flow.py:129-150 | Validation passes exactly when tank-data answers with JSON, or tank-data fails in a caught way and settings answers with JSON. |
| ConfigFlow.Non200IsFinal | custom_components/aqualevel/config_flow.py:133-134 | A non-200 tank-data status is `CannotConnect` at once, without the settings fallback. |
| ConfigFlow.TankAnswerSuffices | custom_components/aqualevel/config_flow.py:131-137 | A tank-data JSON answer passes validation without probing settings. |
| ConfigFlow.UserStepAsWritten | custom_components/aqualevel/config_flow.py:44-71 | The code as written. A configured host shows a form without probing. Every other input behaves as the corrected step. |
| ConfigFlow.UserStep | custom_components/aqualevel/config_flow.py:44-71 | No input shows the empty "user" form. A configured host aborts "already_configured" before any probe. A created entry's data is the input unchanged. |
| ConfigFlow.UserStepFollowsCheck | custom_components/aqualevel/config_flow.py:55-65 | For a new host: an entry (titled with the name or "AquaLevel") exactly when validation passes; otherwise form error "cannot_connect" or "unknown". |
| ConfigFlow.NoSecondEntry | custom_components/aqualevel/config_flow.py:51-52 | Once a host has an entry, adding it again aborts without probing. |
| ConfigFlow.ConfiguredHostShowsUnknown | custom_components/aqualevel/config_flow.py:49-65 | For a configured host, the step as written shows form error "unknown". The corrected step aborts "already_configured". |
| ConfigFlow.Discovered | custom_components/aqualevel/config_flow.py:81-82 | The host comes from the discovery info. The name is no longer than the hostname. |
| ConfigFlow.ConfirmDiscovery | custom_components/aqualevel/config_flow.py:93-119 | Without input it shows the confirmation form with the name placeholder. It creates the entry `{host, name}` titled with the name, or aborts with "cannot_connect" or "unknown". |
| ConfigFlow.ZeroconfStep | custom_components/aqualevel/config_flow.py:73-91 | Never probes. A hostname without "aqualevel-" aborts "not_aqualevel_device" first. Then a configured host aborts "already_configured". Otherwise it shows the confirmation form. |
| ConfigFlow.ZeroconfFormIff | custom_components/aqualevel/config_flow.py:76-91 | The confirmation form appears exactly for a new host whose hostname has the device prefix. |
| ConfigFlow.DiscoveredNameKeepsPrefix | custom_components/aqualevel/config_flow.py:77-81 | A discovered name keeps the "aqualevel-" prefix. |
| ConfigFlow.DiscoveredNameOfLocalHost | custom_components/aqualevel/config_flow.py:81 | `aqualevel-<stem>.local.`, with no dot in the stem, gives the name `aqualevel-<stem>`. |
| ConfigFlow.ConfirmMatchesUserStep | custom_components/aqualevel/config_flow.py:96-113 | Confirming a discovery probes as the user step would for the same host and name. It creates the same entry, or aborts with the reason the user step shows as its error. |
| ConfigFlow.SubmitConfirmation | custom_components/aqualevel/config_flow.py:93-119 | Submitting the "discovery_confirm" form runs the confirmation exactly when a step method answers that step id. The result is then an entry or an abort. |
| ConfigFlow.DiscoveryNeverConfirmed | custom_components/aqualevel/config_flow.py:93-116 | As written, the confirmation form's step id "discovery_confirm" has no method, so submitting it never reaches the confirmation. |
| ConfigFlow.DiscoveryConfirmed | custom_components/aqualevel/config_flow.py:93-116 | With the method named after its form, submitting reaches the confirmation. A passing check creates the entry for the discovered host. |
| ConfigFlow.FormsAnswerable | custom_components/aqualevel/config_flow.py:67-119 | With the corrected method name, every form the flow shows has a step method to answer it. |
| Service.CoordinatorsFrom | custom_components/aqualevel/service.py:38-41 | The registry positions collected are exactly those holding a coordinator, each once, in registry order. |
| Service.NoCoordinators | custom_components/aqualevel/service.py:43-45 | Nothing is collected exactly when no registered object is a coordinator. |
| Service.HandleCalibrate | custom_components/aqualevel/service.py:29-49 | A missing or empty `entity_id` causes no calibration. Every calibration made uses the requested type. |
| Service.CalibratesEveryCoordinator | custom_components/aqualevel/service.py:38-49 | When some entity is named, there is one calibration per coordinator, in registry order, and every coordinator is included. Nothing happens exactly when none is registered. |
| Service.EntitiesIrrelevant | custom_components/aqualevel/service.py:34-49 | Which entities a call names makes no difference, as long as it names one. |
| Service.SchemaRulesOutInvalidType | custom_components/aqualevel/service.py:19-24 | For a call the schema accepts, every calibration sends its request, so the invalid-type branch is unreachable. |
| Service.SetupServices | custom_components/aqualevel/service.py:52-57 | After setup the registered services are exactly the previous ones plus `aqualevel.calibrate`. |
| Service.UnloadServices | custom_components/aqualevel/service.py:59-62 | Unload removes `aqualevel.calibrate` and keeps every other service. |
| Service.UnloadIdempotent | custom_components/aqualevel/service.py:59-62 | Unloading twice equals unloading once. Unloading after setup leaves exactly what unloading alone leaves. |

## Left out

- HTTP transport, sessions, the 10-second timeouts and JSON decoding. Each request is an abstract outcome, and a 200 answer's body is either a decoded JSON value or undecodable.
- Scheduling: the 30-second poll interval, `async_refresh` after a write, and the two-second sleep in the switch. These are timing, and they do not change what is computed.
- Home Assistant lifecycle: `async_setup`, `async_setup_entry`, `async_unload_entry` (`__init__.py` lines 56-94), entity registration, device info, icons and units. This is framework plumbing with no decisions of its own.
- Voluptuous schemas other than the calibrate service's type restriction. `cv.entity_ids` syntax checking is not modelled; the user form's schema is assumed to have supplied `host`.
- Enforcement of number minimum, maximum and step. Home Assistant does that, not this code, so the bounds are constant metadata only.
- `button.py`: two fixed calls to `async_calibrate("empty")` and `async_calibrate("full")`, covered by `Coordinator.Calibrate`.
- Logging, and the response text read after a successful write.
- `async_set_unique_id` aborting for another flow already in progress for the same host. Flow-manager bookkeeping is outside this code.
- Json.Value: `json.loads` also accepts NaN, Infinity and -Infinity. A real number cannot hold them, so the model has no such floats. Under Python, NaN is truthy and every comparison with it is False. The model assumes the device sends finite numbers.
- Json.PyLe: Python compares two lists element by element; the model treats list against list as a TypeError. The device reports numbers in these fields.
- Coordinator.UpdateSettings: the query value is `render(value)`, a parameter standing for Python's `str()`. Float and string formatting are not modelled, so properties of the URL hold for any `render` and the switch's digits are a precondition on it.
- Coordinator.UpdateSettings: the refresh after a 200 answer could itself raise and turn the result into False. That path is not modelled.
- Service.HandleCalibrate: the result is the list of `async_calibrate` calls made. Their HTTP outcomes are `Coordinator.Calibrate`'s concern.

## Findings

| source | as written | input that shows it | evidently intended | confidence | as-written member | corrected member |
|---|---|---|---|---|---|---|
| custom_components/aqualevel/__init__.py:126 | `"tankHeight" in self.data` runs while `self.data` is still None. Home Assistant's coordinator base class resets `data` to None after the subclass sets `{}`, so it raises TypeError and the update fails. | First poll: `/tank-data` answers `{"percentage": 40}` and `/settings` times out. | No previous data counts as no settings to carry forward. The update succeeds with the four readings. | medium, not executed | Coordinator.UpdateDataAsWritten | Coordinator.UpdateData |
| custom_components/aqualevel/config_flow.py:52 | `_abort_if_unique_id_configured()` raises AbortFlow inside `try ... except Exception`. AbortFlow is an Exception, so it becomes form error "unknown". | The user enters a host that already has a config entry. | Abort with "already_configured", as the zeroconf step does at line 86. | medium, not executed | ConfigFlow.UserStepAsWritten | ConfigFlow.UserStep |
| custom_components/aqualevel/config_flow.py:116 | The confirmation form has step id "discovery_confirm", but the method is `async_step_confirm_discovery`. Home Assistant answers a submitted form by calling `async_step_<step id>`, so submitting fails with UnknownStep. | Zeroconf discovers `aqualevel-kitchen.local.` at a new address, and the user confirms. | The method and the form agree on the step id, so confirming runs the validation and creates the entry. | medium, not executed | ConfigFlow.DiscoveryNeverConfirmed | ConfigFlow.DiscoveryConfirmed |

=== FILE: binary_sensor.dfy ===
/**
 * The low- and high-water alert binary sensors: each compares the fill
 * percentage with its threshold, and both stay off while alerts are disabled.
 */
module BinarySensor {
  import opened Wrappers
  import opened Json
  import Http
  import Coordinator

  datatype Alert = LowWater | HighWater

  /** The entity key, the last part of its unique ID; `available` tests it by name. */
  function Key(a: Alert): string {
    match a
    case LowWater => "low_water_alert"
    case HighWater => "high_water_alert"
  }

  /** The threshold setting an alert compares with, and its fallback. */
  function ThresholdKey(a: Alert): string {
    match a
    case LowWater => "alertLevelLow"
    case HighWater => "alertLevelHigh"
  }

  function ThresholdDefault(a: Alert): Value {
    match a
    case LowWater => Int(10)
    case HighWater => Int(90)
  }

  /**
   * `available`: data with entries, a percentage, and the threshold the
   * entity key names, which is the alert's own; so an available alert
   * compares stored values and never the fallbacks.
   */
  function Available(a: Alert, data: Option<Data>): (r: bool)
    ensures r <==> HasData(data) && "percentage" in data.value && ThresholdKey(a) in data.value
    ensures r ==> Percentage(data.value) == data.value["percentage"]
                  && Threshold(a, data.value) == data.value[ThresholdKey(a)]
  {
    if !HasData(data) then false
    else if "percentage" !in data.value then false
    else if Key(a) == "low_water_alert" && "alertLevelLow" !in data.value then false
    else if Key(a) == "high_water_alert" && "alertLevelHigh" !in data.value then false
    else true
  }

  /** `data.get("alertsEnabled", True)` taken as a truth value: a missing switch counts as on. */
  predicate AlertsEnabled(d: Data) {
    Truthy(Get(d, "alertsEnabled", Bool(true)))
  }

  function Percentage(d: Data): Value {
    Get(d, "percentage", Int(0))
  }

  function Threshold(a: Alert, d: Data): Value {
    Get(d, ThresholdKey(a), ThresholdDefault(a))
  }

  /**
   * `is_on`: off without data or with alerts disabled; otherwise
   * `percentage <= low` for the low alert and `percentage >= high` for the
   * high one. None where the comparison raises TypeError.
   */
  function IsOn(a: Alert, data: Option<Data>): (r: Option<bool>)
    ensures !HasData(data) ==> r == Some(false)
    ensures HasData(data) && !AlertsEnabled(data.value) ==> r == Some(false)
  {
    if !HasData(data) then Some(false)
    else if !AlertsEnabled(data.value) then Some(false)
    else match a
      case LowWater => PyLe(Percentage(data.value), Threshold(a, data.value))
      case HighWater => PyLe(Threshold(a, data.value), Percentage(data.value))
  }

  /**
   * On non-empty data (empty data keeps both off, however the numbers
   * compare), with alerts enabled (or the switch missing) and numeric values, the low
   * alert is on exactly when the percentage is at or below the low threshold,
   * the high alert exactly when it is at or above the high threshold.
   */
  lemma OnIffPastThreshold(d: Data)
    requires |d| > 0 && AlertsEnabled(d)
    requires Numeric(Percentage(d)).Some?
    requires Numeric(Threshold(LowWater, d)).Some? && Numeric(Threshold(HighWater, d)).Some?
    ensures IsOn(LowWater, Some(d)) == Some(Numeric(Percentage(d)).value <= Numeric(Threshold(LowWater, d)).value)
    ensures IsOn(HighWater, Some(d)) == Some(Numeric(Percentage(d)).value >= Numeric(Threshold(HighWater, d)).value)
  {
  }

  /** With numeric values and the low threshold below the high one, the two alerts are never on together. */
  lemma NeverBothOn(data: Option<Data>)
    requires data.Some?
    requires Numeric(Percentage(data.value)).Some?
    requires Numeric(Threshold(LowWater, data.value)).Some? && Numeric(Threshold(HighWater, data.value)).Some?
    requires Numeric(Threshold(LowWater, data.value)).value < Numeric(Threshold(HighWater, data.value)).value
    ensures !(IsOn(LowWater, data) == Some(true) && IsOn(HighWater, data) == Some(true))
  {
  }

  /** Both alerts are available after a successful update that had both tank data and settings. */
  lemma AvailableAfterMerge(t: Data, s: Data, prev: Option<Data>)
    requires |t| > 0 && |s| > 0
    ensures var data := Coordinator.UpdateData(Http.Response(200, Http.JsonBody(Obj(t))),
                                               Http.Response(200, Http.JsonBody(Obj(s))), prev).data;
            Available(LowWater, data) && Available(HighWater, data)
  {
    Coordinator.MergeBoth(t, s, prev);
  }

  /**
   * A successful update without tank data leaves both alerts unavailable,
   * whatever the settings side gave and whatever the previous data held.
   */
  lemma UnavailableWithoutReadings(tank: Http.Outcome, settings: Http.Outcome, prev: Option<Data>)
    requires Coordinator.Fetch(tank) == Coordinator.Returned(Null)
    requires Coordinator.UpdateData(tank, settings, prev).available
    ensures var data := Coordinator.Held(Coordinator.UpdateData(tank, settings, prev), prev);
            !Available(LowWater, data) && !Available(HighWater, data)
  {
    assert "percentage" in Coordinator.ReadingKeys;
  }

  /**
   * A failed poll changes nothing the alerts show: availability and state are
   * those of the previous mapping.
   */
  lemma FailedPollKeepsAlerts(tank: Http.Outcome, settings: Http.Outcome, prev: Option<Data>, a: Alert)
    requires !Coordinator.UpdateData(tank, settings, prev).available
    ensures var data := Coordinator.Held(Coordinator.UpdateData(tank, settings, prev), prev);
            Available(a, data) == Available(a, prev) && IsOn(a, data) == IsOn(a, prev)
  {
    Coordinator.FailedPollKeepsData(tank, settings, prev);
  }

  /**
   * After a good poll, the device dropping off the network (both requests
   * failing) fails the update, yet both alerts stay available on the old
   * data: `available` never consults whether the last update succeeded.
   */
  lemma StaleAlertsStayAvailable(t: Data, s: Data, prev: Option<Data>)
    requires |t| > 0 && |s| > 0
    ensures var first := Coordinator.UpdateData(Http.Response(200, Http.JsonBody(Obj(t))),
                                                Http.Response(200, Http.JsonBody(Obj(s))), prev);
            var second := Coordinator.UpdateData(Http.TransportError, Http.TransportError, first.data);
            var data := Coordinator.Held(second, first.data);
            && first.available && !second.available
            && Available(LowWater, data) && Available(HighWater, data)
  {
    Coordinator.MergeBoth(t, s, prev);
    assert Coordinator.Fetch(Http.TransportError) == Coordinator.Returned(Null);
  }
}

=== FILE: config_flow.dfy ===
/**
 * The configuration flow: the manual "user" step, zeroconf discovery and its
 * confirmation, and the connection check they share. Each HTTP probe is an
 * abstract `Http.Outcome`; the unique-ID registry is the set of hosts that
 * already have an entry.
 */
module ConfigFlow {
  import opened Wrappers
  import opened Json
  import opened Http
  import Strings
  import Coordinator

  /** The data a config entry stores: `host` and, when given, `name`. */
  datatype EntryData = EntryData(host: string, name: Option<string>)

  /** The answers the device would give to `/tank-data` and `/settings`. */
  datatype Probes = Probes(tank: Outcome, settings: Outcome)

  /** How `_validate_input` ends: a title, `CannotConnect`, or any other exception. */
  datatype Verdict = Valid(title: string) | CannotConnect | UnexpectedError

  /** The URLs `_validate_input` requested, in order, and how it ended. */
  datatype Validation = Validation(probed: seq<string>, verdict: Verdict)

  /** What a flow step hands back to Home Assistant. */
  datatype FlowResult =
    | ShowForm(stepId: string, errors: map<string, string>, placeholders: map<string, string>)
    | CreateEntry(title: string, data: EntryData)
    | Abort(reason: string)

  /** A step's result together with the URLs it requested on the way. */
  datatype Step = Step(result: FlowResult, probed: seq<string>)

  /** The zeroconf service info the flow reads: the mDNS hostname and the address. */
  datatype ZeroconfInfo = ZeroconfInfo(hostname: string, host: string)

  /** What the zeroconf step remembers for the confirmation: `_host` and `_name`. */
  datatype Discovery = Discovery(host: string, name: string)

  const DevicePrefix := "aqualevel-"
  const LocalSuffix := ".local."

  // ---------------------------------------------------------------- _validate_input

  /** A probe whose answer is a 200 with a decodable JSON body (`null` included). */
  predicate Answered(o: Outcome) {
    o.Response? && o.status == 200 && o.body.JsonBody?
  }

  /**
   * A probe failure the tank-data probe catches and answers by trying
   * `/settings`: a timeout or client error, or a body that is not JSON.
   */
  predicate Caught(o: Outcome) {
    o.TransportError? || (o.Response? && o.status == 200 && o.body.Unparsable?)
  }

  /** How the second, `/settings`, probe ends: every caught failure becomes `CannotConnect`. */
  function SettingsVerdict(o: Outcome, title: string): (v: Verdict)
    ensures v.Valid? <==> Answered(o)
    ensures v.UnexpectedError? <==> o.Unexpected?
  {
    match o
    case Response(status, body) => if status == 200 && body.JsonBody? then Valid(title) else CannotConnect
    case TransportError => CannotConnect
    case Unexpected => UnexpectedError
  }

  /**
   * `_validate_input`: probe `/tank-data`; a non-200 status raises
   * `CannotConnect` at once, a caught failure falls back to `/settings`, any
   * other exception escapes. The title is the given name or "AquaLevel".
   */
  function Validate(data: EntryData, probes: Probes): (r: Validation)
    ensures 1 <= |r.probed| <= 2 && r.probed[0] == Url(data.host, "/tank-data")
    ensures |r.probed| == 2 ==> r.probed[1] == Url(data.host, "/settings")
    ensures r.verdict.Valid? ==> r.verdict.title == data.name.GetOr(Coordinator.DefaultName)
  {
    var tankUrl := Url(data.host, "/tank-data");
    var title := data.name.GetOr(Coordinator.DefaultName);
    var fallback := Validation([tankUrl, Url(data.host, "/settings")], SettingsVerdict(probes.settings, title));
    match probes.tank
    case Response(status, body) =>
      if status != 200 then Validation([tankUrl], CannotConnect)
      else if body.JsonBody? then Validation([tankUrl], Valid(title))
      else fallback
    case TransportError => fallback
    case Unexpected => Validation([tankUrl], UnexpectedError)
  }

  /** `/settings` is asked exactly when the tank-data probe failed in a caught way. */
  lemma SettingsProbedIff(data: EntryData, probes: Probes)
    ensures |Validate(data, probes).probed| == 2 <==> Caught(probes.tank)
  {
  }

  /**
   * The device is accepted exactly when tank-data answers with JSON, or
   * tank-data fails in a caught way and settings answers with JSON.
   */
  lemma ValidIff(data: EntryData, probes: Probes)
    ensures Validate(data, probes).verdict.Valid?
            <==> Answered(probes.tank) || (Caught(probes.tank) && Answered(probes.settings))
  {
  }

  /** A non-200 tank-data answer is final: `CannotConnect`, and settings is never asked. */
  lemma Non200IsFinal(data: EntryData, status: int, body: Body, settings: Outcome)
    requires status != 200
    ensures Validate(data, Probes(Response(status, body), settings))
            == Validation([Url(data.host, "/tank-data")], CannotConnect)
  {
  }

  /** Whatever settings would answer, a JSON answer from tank-data settles the check. */
  lemma TankAnswerSuffices(data: EntryData, v: Value, settings: Outcome)
    ensures Validate(data, Probes(Response(200, JsonBody(v)), settings))
            == Validation([Url(data.host, "/tank-data")], Valid(data.name.GetOr(Coordinator.DefaultName)))
  {
  }

  // ---------------------------------------------------------------- async_step_user

  /** The form error a failed check shows in the user step; the confirmation aborts with the same word. */
  function ErrorKey(v: Verdict): (k: string)
    requires !v.Valid?
    ensures k == "cannot_connect" <==> v.CannotConnect?
  {
    if v.CannotConnect? then "cannot_connect" else "unknown"
  }

  /** The step's answer once the unique ID is known to be new: create the entry or re-show the form. */
  function UserResult(input: EntryData, probes: Probes): (r: Step)
    ensures r.probed == Validate(input, probes).probed
  {
    var v := Validate(input, probes);
    if v.verdict.Valid? then Step(CreateEntry(v.verdict.title, input), v.probed)
    else Step(ShowForm("user", map["base" := ErrorKey(v.verdict)], map[]), v.probed)
  }

  /**
   * `async_step_user` as written: the already-configured check raises
   * `AbortFlow` inside the `try`, whose `except Exception` turns it into the
   * form error "unknown".
   */
  function UserStepAsWritten(input: Option<EntryData>, configured: set<string>, probes: Probes): (r: Step)
    ensures input.Some? && input.value.host in configured ==> r.result.ShowForm? && r.probed == []
    ensures !(input.Some? && input.value.host in configured) ==> r == UserStep(input, configured, probes)
  {
    if input.None? then Step(ShowForm("user", map[], map[]), [])
    else if input.value.host in configured then Step(ShowForm("user", map["base" := "unknown"], map[]), [])
    else UserResult(input.value, probes)
  }

  /**
   * `async_step_user` with the abort let through: no input shows the empty
   * form; a host that already has an entry aborts before any probe; otherwise
   * the check decides between creating the entry from the input unchanged and
   * showing the form again with one error.
   */
  function UserStep(input: Option<EntryData>, configured: set<string>, probes: Probes): (r: Step)
    ensures input.None? ==> r == Step(ShowForm("user", map[], map[]), [])
    ensures input.Some? && input.value.host in configured ==> r == Step(Abort("already_configured"), [])
    ensures r.result.CreateEntry? ==> input.Some? && r.result.data == input.value
    ensures r.result.ShowForm? ==> r.result.stepId == "user" && r.result.placeholders == map[]
  {
    if input.None? then Step(ShowForm("user", map[], map[]), [])
    else if input.value.host in configured then Step(Abort("already_configured"), [])
    else UserResult(input.value, probes)
  }

  /**
   * For a new host the user step follows the check: an entry titled with the
   * name (or "AquaLevel") when it passes, else the form with "cannot_connect"
   * or "unknown" under "base".
   */
  lemma UserStepFollowsCheck(input: EntryData, configured: set<string>, probes: Probes)
    requires input.host !in configured
    ensures var v := Validate(input, probes).verdict;
            var r := UserStep(Some(input), configured, probes).result;
            && (r.CreateEntry? <==> v.Valid?)
            && (r.CreateEntry? ==> r == CreateEntry(input.name.GetOr(Coordinator.DefaultName), input))
            && (v.CannotConnect? ==> r.ShowForm? && r.errors == map["base" := "cannot_connect"])
            && (v.UnexpectedError? ==> r.ShowForm? && r.errors == map["base" := "unknown"])
  {
  }

  /**
   * Once a host has an entry, trying to add it again never creates a second
   * one and never probes the device.
   */
  lemma NoSecondEntry(input: EntryData, configured: set<string>, probes: Probes, later: Probes)
    requires UserStep(Some(input), configured, probes).result.CreateEntry?
    ensures UserStep(Some(input), configured + {input.host}, later) == Step(Abort("already_configured"), [])
  {
  }

  /**
   * Adding an already-configured host by hand: the code as written shows the
   * form error "unknown" where the already-configured abort was meant.
   */
  lemma ConfiguredHostShowsUnknown(input: EntryData, configured: set<string>, probes: Probes)
    requires input.host in configured
    ensures UserStepAsWritten(Some(input), configured, probes)
            == Step(ShowForm("user", map["base" := "unknown"], map[]), [])
    ensures UserStep(Some(input), configured, probes) == Step(Abort("already_configured"), [])
  {
  }

  // ---------------------------------------------------------------- zeroconf discovery

  /** What the zeroconf step stores: the hostname with every ".local." removed, and the address. */
  function Discovered(info: ZeroconfInfo): (d: Discovery)
    ensures d.host == info.host
    ensures |d.name| <= |info.hostname|
  {
    Discovery(info.host, Strings.RemoveAll(info.hostname, LocalSuffix))
  }

  /** `async_step_confirm_discovery`: the form, or the check's verdict as an entry or an abort. */
  function ConfirmDiscovery(d: Discovery, submitted: Option<Probes>): (r: Step)
    ensures submitted.None? ==> r == Step(ShowForm("discovery_confirm", map[], map["name" := d.name]), [])
    ensures r.result.CreateEntry? ==> r.result == CreateEntry(d.name, EntryData(d.host, Some(d.name)))
    ensures submitted.Some? ==> r.probed == Validate(EntryData(d.host, Some(d.name)), submitted.value).probed
    ensures r.result.Abort? ==> r.result.reason in {"cannot_connect", "unknown"}
  {
    if submitted.None? then Step(ShowForm("discovery_confirm", map[], map["name" := d.name]), [])
    else
      var data := EntryData(d.host, Some(d.name));
      var v := Validate(data, submitted.value);
      if v.verdict.Valid? then Step(CreateEntry(v.verdict.title, data), v.probed)
      else Step(Abort(ErrorKey(v.verdict)), v.probed)
  }

  /**
   * `async_step_zeroconf`: a hostname without the "aqualevel-" prefix aborts
   * first; then a known host aborts; otherwise the confirmation form is shown.
   * No probe is made on the way.
   */
  function ZeroconfStep(info: ZeroconfInfo, configured: set<string>): (r: Step)
    ensures r.probed == []
    ensures !Strings.StartsWith(info.hostname, DevicePrefix) ==> r.result == Abort("not_aqualevel_device")
    ensures Strings.StartsWith(info.hostname, DevicePrefix) && info.host in configured
            ==> r.result == Abort("already_configured")
    ensures r.result.ShowForm? ==> r == ConfirmDiscovery(Discovered(info), None)
  {
    if !Strings.StartsWith(info.hostname, DevicePrefix) then Step(Abort("not_aqualevel_device"), [])
    else if info.host in configured then Step(Abort("already_configured"), [])
    else ConfirmDiscovery(Discovered(info), None)
  }

  /** The zeroconf step reaches the form exactly for a new host with the device prefix. */
  lemma ZeroconfFormIff(info: ZeroconfInfo, configured: set<string>)
    ensures ZeroconfStep(info, configured).result.ShowForm?
            <==> Strings.StartsWith(info.hostname, DevicePrefix) && info.host !in configured
  {
  }

  /** A discovered device's name still starts with "aqualevel-": the prefix holds no ".local.". */
  lemma DiscoveredNameKeepsPrefix(info: ZeroconfInfo)
    requires Strings.StartsWith(info.hostname, DevicePrefix)
    ensures Strings.StartsWith(Discovered(info).name, DevicePrefix)
  {
    var rest := info.hostname[|DevicePrefix|..];
    assert info.hostname == DevicePrefix + rest;
    Strings.RemoveAllKeepsPrefix(DevicePrefix, rest, LocalSuffix);
    assert (DevicePrefix + Strings.RemoveAll(rest, LocalSuffix))[..|DevicePrefix|] == DevicePrefix;
  }

  /**
   * The usual mDNS hostname `aqualevel-<stem>.local.`, with no dot in the
   * stem, gives the name `aqualevel-<stem>`.
   */
  lemma DiscoveredNameOfLocalHost(stem: string, host: string)
    requires '.' !in stem
    ensures Discovered(ZeroconfInfo(DevicePrefix + stem + LocalSuffix, host)).name == DevicePrefix + stem
  {
    var p := DevicePrefix + stem;
    assert '.' !in p by {
      assert forall i :: 0 <= i < |p| ==> p[i] == if i < |DevicePrefix| then DevicePrefix[i] else stem[i - |DevicePrefix|];
    }
    Strings.RemoveAllKeepsPrefix(p, LocalSuffix, LocalSuffix);
    assert Strings.StartsWith(LocalSuffix, LocalSuffix);
    assert LocalSuffix[|LocalSuffix|..] == "";
    assert Strings.RemoveAll(LocalSuffix, LocalSuffix) == "";
    assert p + "" == p;
  }

  /**
   * The confirmation validates the discovered host under the discovered
   * name, with the user step's error words as abort reasons.
   */
  lemma ConfirmMatchesUserStep(d: Discovery, configured: set<string>, probes: Probes)
    requires d.host !in configured
    ensures var user := UserStep(Some(EntryData(d.host, Some(d.name))), configured, probes);
            var confirm := ConfirmDiscovery(d, Some(probes));
            && confirm.probed == user.probed
            && (confirm.result.CreateEntry? <==> user.result.CreateEntry?)
            && (confirm.result.CreateEntry? ==> confirm.result == user.result)
            && (confirm.result.Abort? ==> user.result.ShowForm?
                                          && user.result.errors == map["base" := confirm.result.reason])
  {
  }

  // ---------------------------------------------------------------- answering a form

  /**
   * The steps the flow class answers, one per `async_step_*` method. Home
   * Assistant answers a submitted form by calling `async_step_<step id>`.
   */
  const StepsAsWritten: set<string> := {"user", "zeroconf", "confirm_discovery"}

  /** The same with the confirmation method named after the form it shows. */
  const Steps: set<string> := {"user", "zeroconf", "discovery_confirm"}

  /**
   * Submitting the confirmation form (step id "discovery_confirm", the one
   * the zeroconf step shows): the confirmation step runs when the
   * flow has a method for the form's step id; `None` is Home Assistant's
   * `UnknownStep` error.
   */
  function SubmitConfirmation(steps: set<string>, form: Step, d: Discovery, probes: Probes): (r: Option<Step>)
    requires form.result.ShowForm? && form.result.stepId == "discovery_confirm"
    ensures r.Some? <==> form.result.stepId in steps
    ensures r.Some? ==> r.value.result.CreateEntry? || r.value.result.Abort?
  {
    if form.result.stepId in steps then Some(ConfirmDiscovery(d, Some(probes))) else None
  }

  /**
   * As written, the confirmation form names the step "discovery_confirm"
   * while the method is `async_step_confirm_discovery`: submitting it fails
   * with `UnknownStep`, so no discovered device can be added.
   */
  lemma DiscoveryNeverConfirmed(info: ZeroconfInfo, configured: set<string>, probes: Probes)
    requires ZeroconfStep(info, configured).result.ShowForm?
    ensures SubmitConfirmation(StepsAsWritten, ZeroconfStep(info, configured), Discovered(info), probes).None?
  {
  }

  /**
   * With the method named after its form, submitting the confirmation runs
   * the check and, when it passes, creates the entry for the discovered host.
   */
  lemma DiscoveryConfirmed(info: ZeroconfInfo, configured: set<string>, probes: Probes)
    requires ZeroconfStep(info, configured).result.ShowForm?
    ensures var r := SubmitConfirmation(Steps, ZeroconfStep(info, configured), Discovered(info), probes);
            && r.Some?
            && (Validate(EntryData(info.host, Some(Discovered(info).name)), probes).verdict.Valid?
                ==> r.value.result == CreateEntry(Discovered(info).name,
                                                  EntryData(info.host, Some(Discovered(info).name))))
  {
  }

  /** Every form either the user or the zeroconf step shows has a method to answer it. */
  lemma FormsAnswerable(input: Option<EntryData>, info: ZeroconfInfo, configured: set<string>, probes: Probes)
    ensures UserStep(input, configured, probes).result.ShowForm?
            ==> UserStep(input, configured, probes).result.stepId in Steps
    ensures ZeroconfStep(info, configured).result.ShowForm?
            ==> ZeroconfStep(info, configured).result.stepId in Steps
  {
  }
}

=== FILE: coordinator.dfy ===
/**
 * The AquaLevel data-update coordinator: the merge of the two polled
 * endpoints (`/tank-data`, `/settings`) into one mapping with defaults, the
 * settings write (`/set?k=v&...`) and the calibration command
 * (`/calibrate?type=...`). Each HTTP request is an abstract `Http.Outcome`.
 */
module Coordinator {
  import opened Wrappers
  import opened Json
  import opened Http
  import Query

  const Domain := "aqualevel"
  const DefaultName := "AquaLevel"

  /** The tank readings the merge emits, each defaulting to 0. */
  const ReadingDefaults: map<string, Value> := map[
    "distance" := Int(0), "waterLevel" := Int(0), "percentage" := Int(0), "volume" := Int(0)]

  /** The settings the merge emits, with the default used when the device omits one. */
  const SettingsDefaults: map<string, Value> := map[
    "tankHeight" := Int(100), "tankDiameter" := Int(50), "tankVolume" := Int(200),
    "sensorOffset" := Int(5), "emptyDistance" := Int(95), "fullDistance" := Int(5),
    "measurementInterval" := Int(5), "readingSmoothing" := Int(5),
    "alertLevelLow" := Int(10), "alertLevelHigh" := Int(90), "alertsEnabled" := Bool(true)]

  const ReadingKeys: set<string> := ReadingDefaults.Keys
  const SettingsKeys: set<string> := SettingsDefaults.Keys
  const KnownKeys: set<string> := ReadingKeys + SettingsKeys

  /** No key is both a reading and a setting. */
  lemma KeysDisjoint()
    ensures ReadingKeys !! SettingsKeys
  {
  }

  // ---------------------------------------------------------------- polling

  /** What `_fetch_tank_data` / `_fetch_settings` produce: a returned value (None on failure) or an exception. */
  datatype Fetched = Returned(v: Value) | Raised

  /**
   * One fetch: the decoded body of a 200 answer; None for any other status, a
   * transport error or an undecodable body; an exception for anything else.
   */
  function Fetch(o: Outcome): (r: Fetched)
    ensures r.Raised? <==> o.Unexpected?
    ensures r.Returned? && r.v != Null ==> o == Response(200, JsonBody(r.v))
    ensures o.Response? && o.status != 200 ==> r == Returned(Null)
  {
    match o
    case Response(status, body) =>
      if status == 200 && body.JsonBody? then Returned(body.v) else Returned(Null)
    case TransportError => Returned(Null)
    case Unexpected => Raised
  }

  /** `{k: src.get(k, d) for k, d in defaults}`. */
  function WithDefaults(src: Data, defaults: map<string, Value>): (r: Data)
    ensures r.Keys == defaults.Keys
    ensures forall k :: k in r ==> r[k] == Get(src, k, defaults[k])
  {
    map k | k in defaults :: Get(src, k, defaults[k])
  }

  /**
   * `if v: data.update({k: v.get(k, d), ...})`: nothing for a falsy value, the
   * defaulted keys for a dict, and None where `.get` raises (a truthy non-dict).
   */
  function Section(v: Value, defaults: map<string, Value>): (r: Option<Data>)
    ensures r.Some? <==> !Truthy(v) || v.Obj?
    ensures r.Some? && !Truthy(v) ==> r.value == map[]
    ensures r.Some? && Truthy(v) ==> r.value == WithDefaults(v.fields, defaults)
  {
    if !Truthy(v) then Some(map[])
    else if v.Obj? then Some(WithDefaults(v.fields, defaults))
    else None
  }

  /** A failed settings fetch falls back on the previous mapping minus its readings, if that held settings. */
  function CarryForward(settings: Value, prev: Option<Data>): Value {
    if settings == Null && prev.Some? && "tankHeight" in prev.value
    then Obj(prev.value - ReadingKeys)
    else settings
  }

  /** The coordinator's `available` flag after an update, and the data returned (None: UpdateFailed raised). */
  datatype UpdateResult = UpdateResult(available: bool, data: Option<Data>)

  const Failed := UpdateResult(false, None)

  /**
   * The mapping the entities read after a poll: Home Assistant stores the
   * returned data only when the update returns, so a failed update leaves
   * the previous mapping in place.
   */
  function Held(r: UpdateResult, prev: Option<Data>): Option<Data> {
    if r.available then r.data else prev
  }

  /** A failed poll leaves the mapping the entities read exactly as it was. */
  lemma FailedPollKeepsData(tank: Outcome, settings: Outcome, prev: Option<Data>)
    requires !UpdateData(tank, settings, prev).available
    ensures Held(UpdateData(tank, settings, prev), prev) == prev
  {
  }

  /**
   * `_async_update_data`, given the two request outcomes and the previously
   * held data (None before the first successful update). A previous value of
   * None is treated like an empty mapping; `UpdateDataAsWritten` is the code
   * as it stands.
   */
  function UpdateData(tank: Outcome, settings: Outcome, prev: Option<Data>): (r: UpdateResult)
    ensures r.available <==> r.data.Some?
    ensures tank.Unexpected? || settings.Unexpected? ==> !r.available
    ensures Fetch(tank) == Returned(Null) && Fetch(settings) == Returned(Null) ==> !r.available
    ensures r.available ==> r.data.value.Keys <= KnownKeys
    ensures r.available && Fetch(tank) == Returned(Null) ==> r.data.value.Keys !! ReadingKeys
  {
    match (Fetch(tank), Fetch(settings))
    case (Raised, _) => Failed
    case (_, Raised) => Failed
    case (Returned(t), Returned(s)) =>
      if t == Null && s == Null then Failed
      else
        KeysDisjoint();
        var readings := Section(t, ReadingDefaults);
        var config := Section(CarryForward(s, prev), SettingsDefaults);
        if readings.None? || config.None? then Failed
        else UpdateResult(true, Some(readings.value + config.value))
  }

  /**
   * `_async_update_data` as written: with no previous data (the base class
   * starts `data` at None), a failed settings fetch evaluates
   * `"tankHeight" in None`, which raises TypeError and fails the update.
   */
  function UpdateDataAsWritten(tank: Outcome, settings: Outcome, prev: Option<Data>): (r: UpdateResult)
    ensures r.available <==> r.data.Some?
    ensures prev.Some? ==> r == UpdateData(tank, settings, prev)
    ensures (prev.None? && Fetch(tank).Returned? && Fetch(tank).v != Null && Fetch(settings) == Returned(Null))
            ==> !r.available
  {
    if prev.None? && Fetch(tank).Returned? && Fetch(tank).v != Null && Fetch(settings) == Returned(Null)
    then Failed
    else UpdateData(tank, settings, prev)
  }

  /** A successful update's mapping is its readings part merged with its settings part. */
  lemma Parts(tank: Outcome, settings: Outcome, prev: Option<Data>) returns (readings: Data, config: Data)
    requires UpdateData(tank, settings, prev).available
    ensures Fetch(tank).Returned? && Fetch(settings).Returned?
    ensures Section(Fetch(tank).v, ReadingDefaults) == Some(readings)
    ensures Section(CarryForward(Fetch(settings).v, prev), SettingsDefaults) == Some(config)
    ensures readings.Keys <= ReadingKeys && config.Keys <= SettingsKeys
    ensures UpdateData(tank, settings, prev).data == Some(readings + config)
  {
    readings := Section(Fetch(tank).v, ReadingDefaults).value;
    config := Section(CarryForward(Fetch(settings).v, prev), SettingsDefaults).value;
  }

  /** The mapping an update with tank readings in hand produces, when the settings side can be read. */
  lemma TankUpdate(t: Data, settings: Outcome, prev: Option<Data>)
    requires |t| > 0
    requires Fetch(settings).Returned?
    requires Section(CarryForward(Fetch(settings).v, prev), SettingsDefaults).Some?
    ensures UpdateData(Response(200, JsonBody(Obj(t))), settings, prev).data
            == Some(WithDefaults(t, ReadingDefaults)
                    + Section(CarryForward(Fetch(settings).v, prev), SettingsDefaults).value)
  {
    var tank := Response(200, JsonBody(Obj(t)));
    assert Fetch(tank) == Returned(Obj(t));
    assert Truthy(Obj(t));
    assert Section(Obj(t), ReadingDefaults) == Some(WithDefaults(t, ReadingDefaults));
    var config := Section(CarryForward(Fetch(settings).v, prev), SettingsDefaults);
    assert UpdateData(tank, settings, prev)
           == UpdateResult(true, Some(WithDefaults(t, ReadingDefaults) + config.value));
  }

  /**
   * Whenever an update with a non-empty tank-data object succeeds, its
   * mapping holds all four readings, each the device's value or 0.
   */
  lemma ReadingsReported(t: Data, settings: Outcome, prev: Option<Data>)
    requires |t| > 0
    requires UpdateData(Response(200, JsonBody(Obj(t))), settings, prev).available
    ensures var d := UpdateData(Response(200, JsonBody(Obj(t))), settings, prev).data.value;
            ReadingKeys <= d.Keys && forall k :: k in ReadingKeys ==> d[k] == Get(t, k, Int(0))
  {
    var readings, config := Parts(Response(200, JsonBody(Obj(t))), settings, prev);
    assert Fetch(Response(200, JsonBody(Obj(t)))) == Returned(Obj(t));
    assert Truthy(Obj(t));
    MergedParts(readings, config);
    ReadingDefaultsZero();
  }

  /**
   * Whenever an update with a non-empty settings object succeeds, its mapping
   * holds all eleven settings, each the device's value or its default.
   */
  lemma SettingsReported(tank: Outcome, s: Data, prev: Option<Data>)
    requires |s| > 0
    requires UpdateData(tank, Response(200, JsonBody(Obj(s))), prev).available
    ensures var d := UpdateData(tank, Response(200, JsonBody(Obj(s))), prev).data.value;
            SettingsKeys <= d.Keys && forall k :: k in SettingsKeys ==> d[k] == Get(s, k, SettingsDefaults[k])
  {
    var readings, config := Parts(tank, Response(200, JsonBody(Obj(s))), prev);
    MergedParts(readings, config);
  }

  /** In the merged mapping, readings come from the readings side and settings from the settings side. */
  lemma MergedParts(readings: Data, config: Data)
    requires readings.Keys <= ReadingKeys && config.Keys <= SettingsKeys
    ensures forall k :: k in readings ==> (readings + config)[k] == readings[k]
    ensures forall k :: k in config ==> (readings + config)[k] == config[k]
  {
    KeysDisjoint();
  }

  lemma ReadingDefaultsZero()
    ensures forall k :: k in ReadingDefaults ==> ReadingDefaults[k] == Int(0)
  {
  }

  /** The first poll, tank up and settings down: the code as written fails where the readings were in hand. */
  lemma FirstRefreshWithoutSettings()
    ensures var tank := Response(200, JsonBody(Obj(map["percentage" := Int(40)])));
            var asWritten := UpdateDataAsWritten(tank, TransportError, None);
            var intended := UpdateData(tank, TransportError, None);
            && !asWritten.available
            && intended.available
            && intended.data.value.Keys == ReadingKeys
            && intended.data.value["percentage"] == Int(40)
  {
    var t: Data := map["percentage" := Int(40)];
    var d := WithDefaults(t, ReadingDefaults);
    assert Fetch(TransportError) == Returned(Null);
    assert Section(CarryForward(Null, None), SettingsDefaults) == Some(map[]);
    TankUpdate(t, TransportError, None);
    assert d + map[] == d;
    assert "percentage" in ReadingDefaults;
  }

  /** Both endpoints answering with non-empty objects: all fifteen keys, each from its endpoint or its default. */
  lemma MergeBoth(t: Data, s: Data, prev: Option<Data>)
    requires |t| > 0 && |s| > 0
    ensures var r := UpdateData(Response(200, JsonBody(Obj(t))), Response(200, JsonBody(Obj(s))), prev);
            && r.available
            && r.data.value.Keys == KnownKeys
            && (forall k :: k in ReadingKeys ==> r.data.value[k] == Get(t, k, Int(0)))
            && (forall k :: k in SettingsKeys ==> r.data.value[k] == Get(s, k, SettingsDefaults[k]))
  {
    TankUpdate(t, Response(200, JsonBody(Obj(s))), prev);
    MergedParts(WithDefaults(t, ReadingDefaults), WithDefaults(s, SettingsDefaults));
    ReadingDefaultsZero();
  }

  /**
   * The tank side of an update can be used: the request returned something
   * other than null, and that is either falsy or a dict.
   */
  predicate TankUsable(tank: Outcome) {
    Fetch(tank).Returned? && Fetch(tank).v != Null && Section(Fetch(tank).v, ReadingDefaults).Some?
  }

  /**
   * Settings down, previous data holding `tankHeight`: the update succeeds
   * exactly when the tank side can be used, and then its settings are the
   * previous ones (or their defaults), whatever the tank side held.
   */
  lemma SettingsCarriedForward(tank: Outcome, settings: Outcome, prev: Data)
    requires Fetch(settings) == Returned(Null)
    requires "tankHeight" in prev
    ensures UpdateData(tank, settings, Some(prev)).available <==> TankUsable(tank)
    ensures var r := UpdateData(tank, settings, Some(prev));
            r.available ==>
              && SettingsKeys <= r.data.value.Keys
              && forall k :: k in SettingsKeys ==> r.data.value[k] == Get(prev, k, SettingsDefaults[k])
  {
    var c := CarriedSettings(prev);
    if UpdateData(tank, settings, Some(prev)).available {
      var readings, config := Parts(tank, settings, Some(prev));
      MergedParts(readings, config);
    }
  }

  /** The settings side of an update that falls back on `prev`: its settings, or their defaults. */
  lemma CarriedSettings(prev: Data) returns (config: Data)
    requires "tankHeight" in prev
    ensures Section(CarryForward(Null, Some(prev)), SettingsDefaults) == Some(config)
    ensures config.Keys == SettingsKeys
    ensures forall k :: k in SettingsKeys ==> config[k] == Get(prev, k, SettingsDefaults[k])
  {
    KeysDisjoint();
    var carried := prev - ReadingKeys;
    assert "tankHeight" in carried;
    config := WithDefaults(carried, SettingsDefaults);
    forall k | k in SettingsKeys
      ensures config[k] == Get(prev, k, SettingsDefaults[k])
    {
      assert k !in ReadingKeys;
    }
  }

  /** Tank down, settings up: the new mapping has the settings and no readings, whatever `prev` held. */
  lemma ReadingsNeverCarried(tank: Outcome, s: Data, prev: Option<Data>)
    requires Fetch(tank) == Returned(Null)
    requires |s| > 0
    ensures var r := UpdateData(tank, Response(200, JsonBody(Obj(s))), prev);
            && r.available
            && r.data.value.Keys == SettingsKeys
  {
  }

  /**
   * Across two polls, a settings outage after a good poll keeps every
   * setting the good poll produced.
   */
  lemma {:induction false} SettingsSurviveOutage(t1: Data, s1: Data, tank2: Outcome, settings2: Outcome, prev: Option<Data>)
    requires |t1| > 0 && |s1| > 0
    requires TankUsable(tank2)
    requires Fetch(settings2) == Returned(Null)
    ensures var first := UpdateData(Response(200, JsonBody(Obj(t1))), Response(200, JsonBody(Obj(s1))), prev);
            var second := UpdateData(tank2, settings2, first.data);
            && first.available && second.available
            && SettingsKeys <= first.data.value.Keys && SettingsKeys <= second.data.value.Keys
            && forall k :: k in SettingsKeys ==> second.data.value[k] == first.data.value[k]
  {
    var first := UpdateData(Response(200, JsonBody(Obj(t1))), Response(200, JsonBody(Obj(s1))), prev);
    MergeBoth(t1, s1, prev);
    var d1 := first.data.value;
    assert "tankHeight" in d1;
    SettingsCarriedForward(tank2, settings2, d1);
  }

  // ---------------------------------------------------------------- settings write

  /** `param_map`: Home Assistant parameter name to device name, in the order the query lists them. */
  const ParamMap: seq<(string, string)> := [
    ("tank_height", "tankHeight"),
    ("tank_diameter", "tankDiameter"),
    ("tank_volume", "tankVolume"),
    ("sensor_offset", "sensorOffset"),
    ("empty_distance", "emptyDistance"),
    ("full_distance", "fullDistance"),
    ("measurement_interval", "measurementInterval"),
    ("reading_smoothing", "readingSmoothing"),
    ("alert_level_low", "alertLevelLow"),
    ("alert_level_high", "alertLevelHigh"),
    ("alerts_enabled", "alertsEnabled")]

  /** Booleans go to the device as 1 or 0; every other value as it is. */
  function DeviceValue(v: Value): Value {
    if v.Bool? then Int(if v.b then 1 else 0) else v
  }

  /** The query pair entry `n` of `param_map` contributes for the given arguments. */
  function Entry(kwargs: map<string, Value>, n: nat): (string, Value)
    requires n < |ParamMap| && ParamMap[n].0 in kwargs
  {
    (ParamMap[n].1, DeviceValue(kwargs[ParamMap[n].0]))
  }

  /**
   * The entries of a parameter table, from `i` on, whose Home Assistant name
   * was passed: exactly those, each once, in increasing order.
   */
  function Recognised(table: seq<(string, string)>, kwargs: map<string, Value>, i: nat): (sel: seq<nat>)
    requires i <= |table|
    ensures forall j :: 0 <= j < |sel| ==> i <= sel[j] < |table| && table[sel[j]].0 in kwargs
    ensures forall n :: i <= n < |table| && table[n].0 in kwargs ==> n in sel
    ensures forall j, k :: 0 <= j < k < |sel| ==> sel[j] < sel[k]
    decreases |table| - i
  {
    if i == |table| then []
    else if table[i].0 in kwargs then [i] + Recognised(table, kwargs, i + 1)
    else Recognised(table, kwargs, i + 1)
  }

  lemma NothingRecognised(table: seq<(string, string)>, kwargs: map<string, Value>, i: nat)
    requires i <= |table|
    ensures |Recognised(table, kwargs, i)| == 0 <==> forall n :: i <= n < |table| ==> table[n].0 !in kwargs
  {
    var sel := Recognised(table, kwargs, i);
    if |sel| > 0 {
      assert table[sel[0]].0 in kwargs;
    }
  }

  /**
   * The `params` dict of `async_update_settings`, as the list of its items:
   * one pair per recognised argument, renamed and with booleans as 1/0, in
   * `param_map` order; empty exactly when no argument is recognised.
   */
  function EncodeParams(kwargs: map<string, Value>): (ps: seq<(string, Value)>)
    ensures var sel := Recognised(ParamMap, kwargs, 0);
            |ps| == |sel| && forall j :: 0 <= j < |ps| ==> ps[j] == Entry(kwargs, sel[j])
    ensures |ps| == 0 <==> forall n :: 0 <= n < |ParamMap| ==> ParamMap[n].0 !in kwargs
  {
    var sel := Recognised(ParamMap, kwargs, 0);
    NothingRecognised(ParamMap, kwargs, 0);
    seq(|sel|, j requires 0 <= j < |sel| => Entry(kwargs, sel[j]))
  }

  lemma HaNamesDistinct()
    ensures forall a, b :: 0 <= a < b < |ParamMap| ==> ParamMap[a].0 != ParamMap[b].0
  {
  }

  /** With distinct Home Assistant names, a one-argument call recognises exactly the entry of that name. */
  lemma {:induction false} RecognisedSingle(table: seq<(string, string)>, n: nat, v: Value, i: nat)
    requires i <= n < |table|
    requires forall a, b :: 0 <= a < b < |table| ==> table[a].0 != table[b].0
    ensures Recognised(table, map[table[n].0 := v], i) == [n]
    decreases n - i
  {
    var kwargs := map[table[n].0 := v];
    if i == n {
      NothingRecognised(table, kwargs, n + 1);
    } else {
      assert table[i].0 != table[n].0;
      RecognisedSingle(table, n, v, i + 1);
    }
  }

  /** A single recognised argument becomes a single renamed pair. */
  lemma EncodeSingle(n: nat, v: Value)
    requires n < |ParamMap|
    ensures EncodeParams(map[ParamMap[n].0 := v]) == [(ParamMap[n].1, DeviceValue(v))]
  {
    HaNamesDistinct();
    RecognisedSingle(ParamMap, n, v, 0);
  }

  /** Renders each value with Python's `str()`, given as `render`. */
  function Rendered(ps: seq<(string, Value)>, render: Value -> string): (r: seq<(string, string)>)
    ensures |r| == |ps|
    ensures forall i :: 0 <= i < |ps| ==> r[i] == (ps[i].0, render(ps[i].1))
  {
    if |ps| == 0 then [] else [(ps[0].0, render(ps[0].1))] + Rendered(ps[1..], render)
  }

  /** A write command: the URL requested, if any, and the value returned to the caller. */
  datatype WriteResult = WriteResult(request: Option<string>, ok: bool)

  /**
   * `async_update_settings(**kwargs)`: no request and False when no argument is
   * recognised; otherwise one GET of `/set?` with the encoded pairs, True only
   * on a 200 answer.
   */
  function UpdateSettings(host: string, kwargs: map<string, Value>, render: Value -> string, response: Outcome)
    : (r: WriteResult)
    ensures r.request.None? <==> forall n :: 0 <= n < |ParamMap| ==> ParamMap[n].0 !in kwargs
    ensures r.request.Some? ==>
              r.request.value == Url(host, "/set?" + Query.Build(Rendered(EncodeParams(kwargs), render)))
    ensures r.ok <==> r.request.Some? && Succeeded(response)
  {
    var ps := EncodeParams(kwargs);
    if |ps| == 0 then WriteResult(None, false)
    else
      var url := Url(host, "/set?" + Query.Build(Rendered(ps, render)));
      WriteResult(Some(url), Succeeded(response))
  }

  /**
   * The device reads the write back unambiguously: splitting the query of a
   * settings write gives exactly the renamed, rendered pairs, in order, as long
   * as none of the values passed renders with `&`.
   */
  lemma SettingsQueryReadsBack(host: string, kwargs: map<string, Value>, render: Value -> string, response: Outcome)
    requires exists n :: 0 <= n < |ParamMap| && ParamMap[n].0 in kwargs
    requires forall k :: k in kwargs ==> '&' !in render(DeviceValue(kwargs[k]))
    ensures var q := Query.Build(Rendered(EncodeParams(kwargs), render));
            && UpdateSettings(host, kwargs, render, response).request == Some(Url(host, "/set?" + q))
            && Query.Parse(q) == Some(Rendered(EncodeParams(kwargs), render))
  {
    var ps := EncodeParams(kwargs);
    var pairs := Rendered(ps, render);
    var sel := Recognised(ParamMap, kwargs, 0);
    forall i | 0 <= i < |pairs|
      ensures '=' !in pairs[i].0 && '&' !in pairs[i].0 && '&' !in pairs[i].1
    {
      DeviceNamesPlain(sel[i]);
      assert ParamMap[sel[i]].0 in kwargs;
    }
    Query.ParseBuild(pairs);
  }

  /** A one-argument write requests `/set?<device name>=<rendered value>`. */
  lemma SingleWriteUrl(host: string, n: nat, v: Value, render: Value -> string, response: Outcome)
    requires n < |ParamMap|
    ensures UpdateSettings(host, map[ParamMap[n].0 := v], render, response).request
            == Some(Url(host, "/set?" + ParamMap[n].1 + "=" + render(DeviceValue(v))))
  {
    var kwargs := map[ParamMap[n].0 := v];
    EncodeSingle(n, v);
    var pairs := Rendered(EncodeParams(kwargs), render);
    assert pairs == [(ParamMap[n].1, render(DeviceValue(v)))];
    Query.BuildSingle(ParamMap[n].1, render(DeviceValue(v)));
    assert ParamMap[n].0 in kwargs;
    assert "/set?" + (ParamMap[n].1 + "=" + render(DeviceValue(v)))
        == "/set?" + ParamMap[n].1 + "=" + render(DeviceValue(v));
  }

  /** No device parameter name contains `=` or `&`, so each reads back as a key. */
  lemma DeviceNamesPlain(n: nat)
    requires n < |ParamMap|
    ensures '=' !in ParamMap[n].1 && '&' !in ParamMap[n].1
  {
    if n < 6 { DeviceNamesPlainLow(n); } else { DeviceNamesPlainHigh(n); }
  }

  // The table is split in two only to keep each proof obligation small for the solver.
  lemma DeviceNamesPlainLow(n: nat)
    requires n < 6
    ensures '=' !in ParamMap[n].1 && '&' !in ParamMap[n].1
  {
  }

  lemma DeviceNamesPlainHigh(n: nat)
    requires 6 <= n < |ParamMap|
    ensures '=' !in ParamMap[n].1 && '&' !in ParamMap[n].1
  {
  }

  // ---------------------------------------------------------------- calibration

  const CalibrationTypes: set<string> := {"empty", "full"}

  /**
   * `async_calibrate`: no request and False for a type other than "empty" or
   * "full"; otherwise one GET of `/calibrate?type=...`, True only on a 200 answer.
   */
  function Calibrate(host: string, kind: string, response: Outcome): (r: WriteResult)
    ensures kind !in CalibrationTypes ==> r == WriteResult(None, false)
    ensures kind in CalibrationTypes ==> r.request == Some(Url(host, "/calibrate?type=" + kind))
    ensures r.ok <==> r.request.Some? && Succeeded(response)
  {
    if kind !in CalibrationTypes then WriteResult(None, false)
    else WriteResult(Some(Url(host, "/calibrate?type=" + kind)), Succeeded(response))
  }

  /**
   * The calibration URL's literal head, split as a query builder would write
   * it; a separate lemma so that the string equality is proved in a small
   * context.
   */
  lemma CalibratePrefix()
    ensures "/calibrate?" + "type" + "=" == "/calibrate?type="
  {
    var a := "/calibrate?" + "type" + "=";
    assert |a| == 16;
    assert forall i :: 0 <= i < 16 ==> a[i] == "/calibrate?type="[i];
  }

  /**
   * The calibration request carries one query pair, `type` set to the
   * requested kind, and reading its query back yields exactly that pair.
   */
  lemma CalibrateReadsBack(host: string, kind: string, response: Outcome)
    requires kind in CalibrationTypes
    ensures Calibrate(host, kind, response).request == Some(Url(host, "/calibrate?" + Query.Build([("type", kind)])))
    ensures Query.Parse(Query.Build([("type", kind)])) == Some([("type", kind)])
  {
    Query.BuildSingle("type", kind);
    CalibratePrefix();
    assert "/calibrate?" + ("type" + "=" + kind) == "/calibrate?" + "type" + "=" + kind;
    assert '&' !in kind by {
      if kind == "empty" { assert forall i :: 0 <= i < 5 ==> kind[i] != '&'; }
      else { assert forall i :: 0 <= i < 4 ==> kind[i] != '&'; }
    }
    assert '=' !in "type" && '&' !in "type" by {
      assert forall i :: 0 <= i < 4 ==> "type"[i] != '=' && "type"[i] != '&';
    }
    Query.ParseBuild([("type", kind)]);
  }
}

=== FILE: http.dfy ===
/**
 * Abstract outcomes of the integration's HTTP GET requests. The session,
 * timeouts and JSON decoding are not modelled: each request is one of these.
 */
module Http {
  import opened Json

  /** What `await response.json()` yields: a decoded value, or a decoding failure. */
  datatype Body = JsonBody(v: Value) | Unparsable

  datatype Outcome =
    | Response(status: int, body: Body)   // the server answered
    | TransportError                      // aiohttp.ClientError or asyncio.TimeoutError
    | Unexpected                          // any other exception escaping the request

  /** A 200 answer, the only status the integration accepts. */
  predicate Succeeded(o: Outcome) {
    o.Response? && o.status == 200
  }

  /** `f"http://{host}{path}"`. */
  function Url(host: string, path: string): string {
    "http://" + host + path
  }
}

=== FILE: json.dfy ===
/**
 * JSON values as Python's `json` module hands them to the integration, and the
 * few pieces of Python semantics the integration applies to them: truthiness,
 * `dict.get(key, default)` and the `<=` comparison.
 */
module Json {
  import opened Wrappers

  datatype Value =
    | Null                              // JSON null, Python None
    | Bool(b: bool)
    | Int(i: int)
    | Float(x: real)
    | Str(s: string)
    | Arr(items: seq<Value>)
    | Obj(fields: map<string, Value>)

  /** A JSON object, a Python dict with string keys. */
  type Data = map<string, Value>

  /** Python's truth value of a JSON value. */
  predicate Truthy(v: Value) {
    match v
    case Null => false
    case Bool(b) => b
    case Int(i) => i != 0
    case Float(x) => x != 0.0
    case Str(s) => |s| > 0
    case Arr(items) => |items| > 0
    case Obj(fields) => |fields| > 0
  }

  /** `d.get(key, default)`. */
  function Get(d: Data, key: string, default: Value): Value {
    if key in d then d[key] else default
  }

  /**
   * `if not data` on what a coordinator holds (None or a dict): false exactly
   * when the data is None or the empty dict.
   */
  predicate HasData(data: Option<Data>) {
    data.Some? && |data.value| > 0
  }

  /** The number a value stands for in an arithmetic comparison; `bool` is a subclass of `int`. */
  function Numeric(v: Value): Option<real> {
    match v
    case Bool(b) => Some(if b then 1.0 else 0.0)
    case Int(i) => Some(i as real)
    case Float(x) => Some(x)
    case _ => None
  }

  /** Lexicographic `<=` on strings by code point, as Python compares `str`. */
  function StrLe(a: string, b: string): bool {
    if |a| == 0 then true
    else if |b| == 0 then false
    else if a[0] != b[0] then a[0] < b[0]
    else StrLe(a[1..], b[1..])
  }

  /**
   * Python's `a <= b` on two JSON values: `Some(result)`, or `None` where
   * Python raises TypeError.
   */
  function PyLe(a: Value, b: Value): (r: Option<bool>)
    ensures Numeric(a).Some? && Numeric(b).Some? ==>
              r == Some(Numeric(a).value <= Numeric(b).value)
    ensures a.Str? && b.Str? ==> r == Some(StrLe(a.s, b.s))
    ensures r.Some? ==> (Numeric(a).Some? && Numeric(b).Some?) || (a.Str? && b.Str?)
  {
    if Numeric(a).Some? && Numeric(b).Some? then Some(Numeric(a).value <= Numeric(b).value)
    else if a.Str? && b.Str? then Some(StrLe(a.s, b.s))
    else None
  }
}

=== FILE: number.dfy ===
/**
 * The ten number entities: each shows one setting of the merged mapping and
 * writes a new value back through the coordinator's settings write.
 */
module Number {
  import opened Wrappers
  import opened Json
  import Http
  import Strings
  import Coordinator

  /** One number entity: its name, the key it reads, its bounds and step, and the parameter it writes. */
  datatype NumberSpec = NumberSpec(name: string, key: string, min: real, max: real, step: real, param: string)

  const Numbers: seq<NumberSpec> := [
    NumberSpec("Tank Height", "tankHeight", 10.0, 500.0, 0.1, "tank_height"),
    NumberSpec("Tank Diameter", "tankDiameter", 10.0, 500.0, 0.1, "tank_diameter"),
    NumberSpec("Tank Volume", "tankVolume", 1.0, 10000.0, 0.1, "tank_volume"),
    NumberSpec("Sensor Offset", "sensorOffset", 0.0, 100.0, 0.1, "sensor_offset"),
    NumberSpec("Empty Distance", "emptyDistance", 10.0, 500.0, 0.1, "empty_distance"),
    NumberSpec("Full Distance", "fullDistance", 0.0, 100.0, 0.1, "full_distance"),
    NumberSpec("Measurement Interval", "measurementInterval", 1.0, 3600.0, 1.0, "measurement_interval"),
    NumberSpec("Reading Smoothing", "readingSmoothing", 1.0, 50.0, 1.0, "reading_smoothing"),
    NumberSpec("Low Alert Level", "alertLevelLow", 0.0, 100.0, 1.0, "alert_level_low"),
    NumberSpec("High Alert Level", "alertLevelHigh", 0.0, 100.0, 1.0, "alert_level_high")]

  /** `service_param or key`: an empty parameter name falls back on the key. */
  function ServiceParam(e: NumberSpec): string {
    if e.param == "" then e.key else e.param
  }

  /** `available`: data present and holding the entity's key. */
  function Available(e: NumberSpec, data: Option<Data>): (r: bool)
    ensures r ==> HasData(data)
    ensures r <==> data.Some? && e.key in data.value.Keys
  {
    data.Some? && e.key in data.value
  }

  /** `native_value`: None (Null) for no data or an empty mapping, else `data.get(key)`. */
  function NativeValue(e: NumberSpec, data: Option<Data>): (r: Value)
    ensures !HasData(data) ==> r == Null
    ensures Available(e, data) ==> r == data.value[e.key]
    ensures !Available(e, data) ==> r == Null
  {
    if !HasData(data) then Null else Get(data.value, e.key, Null)
  }

  /** The keyword arguments `async_set_native_value` passes to the settings write. */
  function SetValueArgs(e: NumberSpec, v: Value): map<string, Value> {
    map[ServiceParam(e) := v]
  }

  /** `f"{host}_{key}"`. */
  function UniqueId(host: string, e: NumberSpec): string {
    host + "_" + e.key
  }

  /** The number at position `i` sits at the same position of `param_map`, paired with its own key. */
  lemma ParamMapsBack(i: nat) returns (n: nat)
    requires i < |Numbers|
    ensures n < |Coordinator.ParamMap|
    ensures Coordinator.ParamMap[n] == (ServiceParam(Numbers[i]), Numbers[i].key)
  {
    n := i;
  }

  /** The values of `param_map` are the ten number keys plus `alertsEnabled`. */
  lemma ParamMapCoversNumbers()
    ensures (set n | 0 <= n < |Coordinator.ParamMap| :: Coordinator.ParamMap[n].1)
            == (set i | 0 <= i < |Numbers| :: Numbers[i].key) + {"alertsEnabled"}
  {
    var pm := Coordinator.ParamMap;
    var devices := set n | 0 <= n < |pm| :: pm[n].1;
    var keys := set i | 0 <= i < |Numbers| :: Numbers[i].key;
    forall d | d in devices
      ensures d in keys + {"alertsEnabled"}
    {
      var n :| 0 <= n < |pm| && pm[n].1 == d;
      if n < |Numbers| {
        assert Numbers[n].key == d;
      }
    }
    forall d | d in keys + {"alertsEnabled"}
      ensures d in devices
    {
      if d == "alertsEnabled" {
        assert pm[10].1 == d;
      } else {
        var i :| 0 <= i < |Numbers| && Numbers[i].key == d;
        assert pm[i].1 == d;
      }
    }
  }

  /** Every number entity has a non-empty range and a positive step. */
  lemma BoundsSane(i: nat)
    requires i < |Numbers|
    ensures Numbers[i].min <= Numbers[i].max && Numbers[i].step > 0.0
  {
  }

  /**
   * Setting a value writes exactly one pair: the entity's own key, with the
   * value the device expects; the field written is the field read.
   */
  lemma SetValueWritesOwnKey(i: nat, v: Value)
    requires i < |Numbers|
    ensures Coordinator.EncodeParams(SetValueArgs(Numbers[i], v))
            == [(Numbers[i].key, Coordinator.DeviceValue(v))]
  {
    var n := ParamMapsBack(i);
    Coordinator.EncodeSingle(n, v);
  }

  /** Every number key is one of the settings the merge emits. */
  lemma NumberKeysAreSettings(i: nat)
    requires i < |Numbers|
    ensures Numbers[i].key in Coordinator.SettingsKeys
  {
  }

  /**
   * After any successful update with a non-empty settings object, every number
   * entity is available and shows the device's setting or its default.
   */
  lemma AvailableAfterSettings(tank: Http.Outcome, s: Data, prev: Option<Data>, i: nat)
    requires |s| > 0 && i < |Numbers|
    requires Coordinator.UpdateData(tank, Http.Response(200, Http.JsonBody(Obj(s))), prev).available
    ensures var data := Coordinator.UpdateData(tank, Http.Response(200, Http.JsonBody(Obj(s))), prev).data;
            var key := Numbers[i].key;
            && Available(Numbers[i], data)
            && NativeValue(Numbers[i], data) == Get(s, key, Get(Coordinator.SettingsDefaults, key, Null))
  {
    NumberKeysAreSettings(i);
    Coordinator.SettingsReported(tank, s, prev);
  }

  /** The ten unique IDs of one host are pairwise distinct. */
  lemma UniqueIdsDistinct(host: string, i: nat, j: nat)
    requires i < j < |Numbers|
    ensures UniqueId(host, Numbers[i]) != UniqueId(host, Numbers[j])
  {
    Strings.PrefixCancel(host + "_", Numbers[i].key, Numbers[j].key);
  }
}

=== FILE: query.dfy ===
/**
 * The `k=v&k=v` query string the coordinator appends to `/set?`, and the
 * split a receiver applies to read it back.
 */
module Query {
  import opened Wrappers
  import opened Strings

  /** The `f"{k}={v}"` pieces of a query. */
  function Pieces(pairs: seq<(string, string)>): (r: seq<string>)
    ensures |r| == |pairs|
    ensures forall i :: 0 <= i < |pairs| ==> r[i] == pairs[i].0 + "=" + pairs[i].1
  {
    if |pairs| == 0 then [] else [pairs[0].0 + "=" + pairs[0].1] + Pieces(pairs[1..])
  }

  /** `'&'.join(f"{k}={v}" for k, v in pairs)`. */
  function Build(pairs: seq<(string, string)>): string {
    Join(Pieces(pairs), '&')
  }

  /** A one-pair query is just `k=v`. */
  lemma BuildSingle(k: string, v: string)
    ensures Build([(k, v)]) == k + "=" + v
  {
    assert Pieces([(k, v)]) == [k + "=" + v];
  }

  /** Splits a query on `&`, then each piece at its first `=`. */
  function Parse(q: string): Option<seq<(string, string)>> {
    ParsePieces(Split(q, '&'))
  }

  function ParsePieces(pieces: seq<string>): Option<seq<(string, string)>> {
    if |pieces| == 0 then Some([])
    else match (SplitFirst(pieces[0], '='), ParsePieces(pieces[1..]))
      case (Some(kv), Some(rest)) => Some([kv] + rest)
      case _ => None
  }

  /** Keys free of `=` and `&`, values free of `&`: what a query can carry unambiguously. */
  predicate Unambiguous(pairs: seq<(string, string)>) {
    forall i :: 0 <= i < |pairs| ==>
      '=' !in pairs[i].0 && '&' !in pairs[i].0 && '&' !in pairs[i].1
  }

  lemma {:induction false} ParsePiecesOfPieces(pairs: seq<(string, string)>)
    requires forall i :: 0 <= i < |pairs| ==> '=' !in pairs[i].0
    ensures ParsePieces(Pieces(pairs)) == Some(pairs)
    decreases |pairs|
  {
    if |pairs| > 0 {
      var head := pairs[0].0 + "=" + pairs[0].1;
      assert Pieces(pairs) == [head] + Pieces(pairs[1..]);
      SplitFirstJoin(pairs[0].0, '=', pairs[0].1);
      ParsePiecesOfPieces(pairs[1..]);
      ParsePiecesCons(head, Pieces(pairs[1..]), pairs[0], pairs[1..]);
      assert [pairs[0]] + pairs[1..] == pairs;
    }
  }

  /** Reading a piece list one piece at a time. */
  lemma ParsePiecesCons(p: string, rest: seq<string>, kv: (string, string), tail: seq<(string, string)>)
    requires SplitFirst(p, '=') == Some(kv)
    requires ParsePieces(rest) == Some(tail)
    ensures ParsePieces([p] + rest) == Some([kv] + tail)
  {
    assert ([p] + rest)[0] == p;
    assert ([p] + rest)[1..] == rest;
  }

  /** Reading a non-empty unambiguous query back yields exactly the pairs, in order. */
  lemma ParseBuild(pairs: seq<(string, string)>)
    requires |pairs| > 0
    requires Unambiguous(pairs)
    ensures Parse(Build(pairs)) == Some(pairs)
  {
    var ps := Pieces(pairs);
    forall i | 0 <= i < |ps|
      ensures '&' !in ps[i]
    {
      assert ps[i] == pairs[i].0 + "=" + pairs[i].1;
    }
    SplitJoin(ps, '&');
    ParsePiecesOfPieces(pairs);
  }
}

=== FILE: sensor.dfy ===
/** The three sensor entities: read-only views of the tank readings in the merged mapping. */
module Sensor {
  import opened Wrappers
  import opened Json
  import Http
  import Strings
  import Coordinator
  import Number

  datatype SensorSpec = SensorSpec(name: string, key: string)

  const Sensors: seq<SensorSpec> := [
    SensorSpec("Distance", "distance"),
    SensorSpec("Water Level", "waterLevel"),
    SensorSpec("Water Percentage", "percentage")]

  /** `available`: data present and holding the sensor's key. */
  function Available(e: SensorSpec, data: Option<Data>): (r: bool)
    ensures r ==> HasData(data)
    ensures r <==> data.Some? && e.key in data.value.Keys
  {
    data.Some? && e.key in data.value
  }

  /** `native_value`: the stored value when the key is there, None (Null) otherwise. */
  function NativeValue(e: SensorSpec, data: Option<Data>): (r: Value)
    ensures Available(e, data) ==> r == data.value[e.key]
    ensures !Available(e, data) ==> r == Null
  {
    if data.None? || e.key !in data.value then Null else data.value[e.key]
  }

  /** `f"{host}_{key}"`. */
  function UniqueId(host: string, e: SensorSpec): string {
    host + "_" + e.key
  }

  /**
   * A sensor's value agrees with what a number entity with the same key
   * would show: the two ways of reading a key from the mapping coincide.
   */
  lemma ReadsLikeNumber(e: SensorSpec, n: Number.NumberSpec, data: Option<Data>)
    requires e.key == n.key
    ensures NativeValue(e, data) == Number.NativeValue(n, data)
    ensures Available(e, data) == Number.Available(n, data)
  {
  }

  /** Every sensor key is one of the readings the merge emits. */
  lemma SensorKeysAreReadings(i: nat)
    requires i < |Sensors|
    ensures Sensors[i].key in Coordinator.ReadingKeys
  {
  }

  /**
   * After any successful update with a non-empty tank-data object, every
   * sensor is available and shows the device's reading or 0.
   */
  lemma AvailableAfterTankData(t: Data, settings: Http.Outcome, prev: Option<Data>, i: nat)
    requires |t| > 0 && i < |Sensors|
    requires Coordinator.UpdateData(Http.Response(200, Http.JsonBody(Obj(t))), settings, prev).available
    ensures var data := Coordinator.UpdateData(Http.Response(200, Http.JsonBody(Obj(t))), settings, prev).data;
            && Available(Sensors[i], data)
            && NativeValue(Sensors[i], data) == Get(t, Sensors[i].key, Int(0))
  {
    SensorKeysAreReadings(i);
    Coordinator.ReadingsReported(t, settings, prev);
  }

  /** The unique IDs of the sensors of one host are pairwise distinct, and distinct from the numbers'. */
  lemma UniqueIdsDistinct(host: string)
    ensures forall i, j :: 0 <= i < j < |Sensors| ==> UniqueId(host, Sensors[i]) != UniqueId(host, Sensors[j])
    ensures forall i, j :: 0 <= i < |Sensors| && 0 <= j < |Number.Numbers| ==>
              UniqueId(host, Sensors[i]) != Number.UniqueId(host, Number.Numbers[j])
  {
    forall i, j | 0 <= i < j < |Sensors|
      ensures UniqueId(host, Sensors[i]) != UniqueId(host, Sensors[j])
    {
      Strings.PrefixCancel(host + "_", Sensors[i].key, Sensors[j].key);
    }
    forall i, j | 0 <= i < |Sensors| && 0 <= j < |Number.Numbers|
      ensures UniqueId(host, Sensors[i]) != Number.UniqueId(host, Number.Numbers[j])
    {
      SensorKeysAreReadings(i);
      Number.NumberKeysAreSettings(j);
      Coordinator.KeysDisjoint();
      Strings.PrefixCancel(host + "_", Sensors[i].key, Number.Numbers[j].key);
    }
  }
}

=== FILE: service.dfy ===
/**
 * The `aqualevel.calibrate` service: its call schema, the handler that fans a
 * calibration out to every registered coordinator, and the service
 * registration and removal.
 */
module Service {
  import opened Wrappers
  import Http
  import Coordinator

  const CalibrateService := "calibrate"

  /** A service call's data: `entity_id` and `calibration_type`, each possibly absent. */
  datatype CallData = CallData(entityIds: Option<seq<string>>, calibrationType: Option<string>)

  /**
   * What `hass.data["aqualevel"]` maps a config entry id to: a coordinator
   * (known by its host) or some other object.
   */
  datatype Registered = CoordinatorOf(host: string) | Other

  /** `hass.data["aqualevel"]` in insertion order. */
  type Registry = seq<(string, Registered)>

  /** One `async_calibrate(calibration_type)` call the handler makes. */
  datatype Calibration = Calibration(host: string, kind: Option<string>)

  /**
   * The call schema: both fields required, the type one of "empty" and
   * "full". Entity-id syntax checking is not modelled.
   */
  predicate Accepted(call: CallData) {
    call.entityIds.Some? && call.calibrationType.Some?
    && call.calibrationType.value in Coordinator.CalibrationTypes
  }

  /**
   * The positions, from `i` on, of the registered objects that are
   * coordinators: exactly those, each once, in registry order.
   */
  function CoordinatorsFrom(registry: Registry, i: nat): (sel: seq<nat>)
    requires i <= |registry|
    ensures forall j :: 0 <= j < |sel| ==> i <= sel[j] < |registry| && registry[sel[j]].1.CoordinatorOf?
    ensures forall n :: i <= n < |registry| && registry[n].1.CoordinatorOf? ==> n in sel
    ensures forall j, k :: 0 <= j < k < |sel| ==> sel[j] < sel[k]
    decreases |registry| - i
  {
    if i == |registry| then []
    else if registry[i].1.CoordinatorOf? then [i] + CoordinatorsFrom(registry, i + 1)
    else CoordinatorsFrom(registry, i + 1)
  }

  /** The coordinators' positions in the whole registry. */
  function Coordinators(registry: Registry): seq<nat> {
    CoordinatorsFrom(registry, 0)
  }

  /** No position is selected exactly when no registered object is a coordinator. */
  lemma NoCoordinators(registry: Registry)
    ensures |Coordinators(registry)| == 0 <==> forall n :: 0 <= n < |registry| ==> registry[n].1.Other?
  {
    var sel := Coordinators(registry);
    if |sel| > 0 {
      assert registry[sel[0]].1.CoordinatorOf?;
    }
  }

  /**
   * `async_calibrate_service`: nothing for a missing or empty `entity_id`;
   * otherwise one calibration per registered coordinator, in registry order,
   * whatever entities were named.
   */
  function HandleCalibrate(call: CallData, registry: Registry): (r: seq<Calibration>)
    ensures call.entityIds.None? || call.entityIds.value == [] ==> r == []
    ensures forall j :: 0 <= j < |r| ==> r[j].kind == call.calibrationType
  {
    if call.entityIds.None? || call.entityIds.value == [] then []
    else
      var sel := Coordinators(registry);
      seq(|sel|, j requires 0 <= j < |sel| => Calibration(registry[sel[j]].1.host, call.calibrationType))
  }

  /**
   * With some entity named, the j-th calibration goes to the j-th coordinator
   * of the registry: every coordinator once, in registry order, with the
   * requested type; with none registered, nothing happens.
   */
  lemma CalibratesEveryCoordinator(call: CallData, registry: Registry)
    requires call.entityIds.Some? && call.entityIds.value != []
    ensures var r := HandleCalibrate(call, registry);
            var sel := Coordinators(registry);
            && |r| == |sel|
            && (forall j :: 0 <= j < |r| ==> r[j] == Calibration(registry[sel[j]].1.host, call.calibrationType))
            && (forall n :: 0 <= n < |registry| && registry[n].1.CoordinatorOf?
                            ==> Calibration(registry[n].1.host, call.calibrationType) in r)
            && ((forall n :: 0 <= n < |registry| ==> registry[n].1.Other?) <==> r == [])
  {
    var r := HandleCalibrate(call, registry);
    var sel := Coordinators(registry);
    forall n | 0 <= n < |registry| && registry[n].1.CoordinatorOf?
      ensures Calibration(registry[n].1.host, call.calibrationType) in r
    {
      var j :| 0 <= j < |sel| && sel[j] == n;
      assert r[j] == Calibration(registry[n].1.host, call.calibrationType);
    }
    NoCoordinators(registry);
  }

  /** Which entities a call names makes no difference, as long as it names one. */
  lemma EntitiesIrrelevant(a: seq<string>, b: seq<string>, kind: Option<string>, registry: Registry)
    requires a != [] && b != []
    ensures HandleCalibrate(CallData(Some(a), kind), registry) == HandleCalibrate(CallData(Some(b), kind), registry)
  {
  }

  /**
   * A call the schema lets through never reaches the coordinator's
   * invalid-type branch: every calibration it makes sends its request.
   */
  lemma SchemaRulesOutInvalidType(call: CallData, registry: Registry, response: Http.Outcome)
    requires Accepted(call)
    ensures forall c :: c in HandleCalibrate(call, registry) ==>
              c.kind.Some?
              && Coordinator.Calibrate(c.host, c.kind.value, response).request
                 == Some(Http.Url(c.host, "/calibrate?type=" + c.kind.value))
  {
  }

  // ---------------------------------------------------------------- registration

  /** The services registered with Home Assistant, as (domain, service) pairs. */
  type Services = set<(string, string)>

  /** `async_setup_services`: registers (or re-registers) `aqualevel.calibrate`. */
  function SetupServices(services: Services): (r: Services)
    ensures (Coordinator.Domain, CalibrateService) in r
    ensures forall s :: s in r <==> s in services || s == (Coordinator.Domain, CalibrateService)
  {
    services + {(Coordinator.Domain, CalibrateService)}
  }

  /** `async_unload_services`: removes `aqualevel.calibrate` when it is registered. */
  function UnloadServices(services: Services): (r: Services)
    ensures (Coordinator.Domain, CalibrateService) !in r
    ensures forall s :: s in services && s != (Coordinator.Domain, CalibrateService) <==> s in r
  {
    if (Coordinator.Domain, CalibrateService) in services
    then services - {(Coordinator.Domain, CalibrateService)}
    else services
  }

  /**
   * Unloading twice is the same as once, and unloading after setup leaves
   * exactly the other integrations' services.
   */
  lemma UnloadIdempotent(services: Services)
    ensures UnloadServices(UnloadServices(services)) == UnloadServices(services)
    ensures UnloadServices(SetupServices(services)) == UnloadServices(services)
  {
  }
}

=== FILE: strings.dfy ===
/**
 * String operations on `seq<char>`: `str.replace` (as `RemoveAll`) as the
 * integration uses it, and `Join`, `Split` and `SplitFirst` with their
 * lemmas, which the device-side query reader `Query.Parse` is built from.
 */
module Strings {
  import opened Wrappers

  /** Strings with a common prefix are equal exactly when the rests are. */
  lemma PrefixCancel(p: string, a: string, b: string)
    ensures p + a == p + b <==> a == b
  {
    assert (p + a)[|p|..] == a;
    assert (p + b)[|p|..] == b;
  }

  /** `s.startswith(prefix)`. */
  predicate StartsWith(s: string, prefix: string) {
    |prefix| <= |s| && s[..|prefix|] == prefix
  }

  /**
   * `s.replace(pat, "")`: one left-to-right pass deleting every
   * non-overlapping occurrence of `pat`.
   */
  function RemoveAll(s: string, pat: string): (r: string)
    requires |pat| > 0
    ensures |r| <= |s|
    decreases |s|
  {
    if |s| == 0 then ""
    else if StartsWith(s, pat) then RemoveAll(s[|pat|..], pat)
    else [s[0]] + RemoveAll(s[1..], pat)
  }

  /**
   * A prefix in which no occurrence of `pat` can start survives the removal
   * untouched.
   */
  lemma {:induction false} RemoveAllKeepsPrefix(p: string, s: string, pat: string)
    requires |pat| > 0
    requires pat[0] !in p
    ensures RemoveAll(p + s, pat) == p + RemoveAll(s, pat)
    decreases |p|
  {
    if |p| > 0 {
      var t := p + s;
      assert t[0] == p[0] && t[0] != pat[0];
      assert !StartsWith(t, pat);
      assert t[1..] == p[1..] + s;
      RemoveAllKeepsPrefix(p[1..], s, pat);
      assert p == [p[0]] + p[1..];
    } else {
      assert p + s == s;
    }
  }

  /** `sep.join(parts)` with a one-character separator. */
  function Join(parts: seq<string>, sep: char): string {
    if |parts| == 0 then ""
    else if |parts| == 1 then parts[0]
    else parts[0] + [sep] + Join(parts[1..], sep)
  }

  /** `s.split(sep)` with a one-character separator; never empty. */
  function Split(s: string, sep: char): (r: seq<string>)
    ensures |r| > 0
  {
    if |s| == 0 then [""]
    else if s[0] == sep then [""] + Split(s[1..], sep)
    else
      var rest := Split(s[1..], sep);
      [[s[0]] + rest[0]] + rest[1..]
  }

  /** Splitting a separator-free piece followed by a separator peels that piece off. */
  lemma {:induction false} SplitPiece(p: string, sep: char, rest: string)
    requires sep !in p
    ensures Split(p + [sep] + rest, sep) == [p] + Split(rest, sep)
    decreases |p|
  {
    if |p| == 0 {
      assert p + [sep] + rest == [sep] + rest;
      assert ([sep] + rest)[1..] == rest;
    } else {
      var s := p + [sep] + rest;
      assert s[0] == p[0] && s[0] != sep;
      assert s[1..] == p[1..] + [sep] + rest;
      SplitPiece(p[1..], sep, rest);
      assert p == [p[0]] + p[1..];
    }
  }

  /** A separator-free string splits into itself alone. */
  lemma {:induction false} SplitWhole(p: string, sep: char)
    requires sep !in p
    ensures Split(p, sep) == [p]
    decreases |p|
  {
    if |p| > 0 {
      SplitWhole(p[1..], sep);
      assert p == [p[0]] + p[1..];
    }
  }

  /** `Split` undoes `Join` when no part contains the separator. */
  lemma {:induction false} SplitJoin(parts: seq<string>, sep: char)
    requires |parts| > 0
    requires forall i :: 0 <= i < |parts| ==> sep !in parts[i]
    ensures Split(Join(parts, sep), sep) == parts
    decreases |parts|
  {
    if |parts| == 1 {
      SplitWhole(parts[0], sep);
    } else {
      SplitJoin(parts[1..], sep);
      SplitPiece(parts[0], sep, Join(parts[1..], sep));
      assert parts == [parts[0]] + parts[1..];
    }
  }

  /** `s.split(sep, 1)` as a pair, or None when `sep` does not occur. */
  function SplitFirst(s: string, sep: char): Option<(string, string)> {
    if |s| == 0 then None
    else if s[0] == sep then Some(("", s[1..]))
    else match SplitFirst(s[1..], sep)
      case None => None
      case Some(kv) => Some(([s[0]] + kv.0, kv.1))
  }

  /** Splitting at the first separator recovers a separator-free head and whatever follows. */
  lemma {:induction false} SplitFirstJoin(k: string, sep: char, v: string)
    requires sep !in k
    ensures SplitFirst(k + [sep] + v, sep) == Some((k, v))
    decreases |k|
  {
    var s := k + [sep] + v;
    if |k| == 0 {
      assert s == [sep] + v;
      assert s[1..] == v;
    } else {
      assert s[0] == k[0];
      assert s[1..] == k[1..] + [sep] + v;
      SplitFirstJoin(k[1..], sep, v);
      assert k == [k[0]] + k[1..];
    }
  }
}

=== FILE: switch.dfy ===
/** The alerts-enabled switch: shows `alertsEnabled` and writes it through the settings write. */
module Switch {
  import opened Wrappers
  import opened Json
  import Http
  import Coordinator
  import BinarySensor

  /** `available`: data present and holding `alertsEnabled`. */
  function Available(data: Option<Data>): (r: bool)
    ensures r ==> HasData(data) && "alertsEnabled" in data.value
                  && (IsOn(data) <==> Truthy(data.value["alertsEnabled"]))
    ensures data.Some? && "alertsEnabled" in data.value ==> r
  {
    data.Some? && "alertsEnabled" in data.value
  }

  /** `is_on`: off without data, else the truth value of `alertsEnabled` (missing counts as on). */
  function IsOn(data: Option<Data>): (r: bool)
    ensures !HasData(data) ==> !r
    ensures HasData(data) ==> (r <==> BinarySensor.AlertsEnabled(data.value))
    ensures HasData(data) && "alertsEnabled" !in data.value ==> r
  {
    HasData(data) && Truthy(Get(data.value, "alertsEnabled", Bool(true)))
  }

  /** The keyword arguments `async_turn_on` / `async_turn_off` pass to the settings write. */
  function TurnArgs(on: bool): map<string, Value> {
    map["alerts_enabled" := Bool(on)]
  }

  /**
   * Turning the switch on or off sends one request, `/set?alertsEnabled=1` or
   * `/set?alertsEnabled=0`, whenever `str()` renders 1 and 0 as digits.
   */
  lemma TurnWrites(host: string, on: bool, render: Value -> string, response: Http.Outcome)
    requires render(Int(1)) == "1" && render(Int(0)) == "0"
    ensures Coordinator.UpdateSettings(host, TurnArgs(on), render, response).request
            == Some(Http.Url(host, "/set?alertsEnabled=" + (if on then "1" else "0")))
  {
    assert Coordinator.ParamMap[10] == ("alerts_enabled", "alertsEnabled");
    Coordinator.SingleWriteUrl(host, 10, Bool(on), render, response);
    assert render(Coordinator.DeviceValue(Bool(on))) == (if on then "1" else "0");
    WritePrefix();
  }

  /**
   * The query prefix the switch's write starts with, as one literal; a
   * separate lemma so that the string equality is proved in a small context.
   */
  lemma WritePrefix()
    ensures "/set?" + "alertsEnabled" + "=" == "/set?alertsEnabled="
  {
    var a := "/set?" + "alertsEnabled" + "=";
    assert |a| == 19;
    assert forall i :: 0 <= i < 19 ==> a[i] == "/set?alertsEnabled="[i];
  }

  /**
   * Written then read back: once a poll reports the value the switch wrote,
   * the switch shows the requested state, and turning it off silences both alerts.
   */
  lemma ReadsBackWrite(tank: Http.Outcome, s: Data, prev: Option<Data>, on: bool)
    requires "alertsEnabled" in s && s["alertsEnabled"] == Coordinator.DeviceValue(Bool(on))
    requires Coordinator.UpdateData(tank, Http.Response(200, Http.JsonBody(Obj(s))), prev).available
    ensures var data := Coordinator.UpdateData(tank, Http.Response(200, Http.JsonBody(Obj(s))), prev).data;
            && Available(data)
            && IsOn(data) == on
            && (!on ==> BinarySensor.IsOn(BinarySensor.LowWater, data) == Some(false)
                        && BinarySensor.IsOn(BinarySensor.HighWater, data) == Some(false))
  {
    Coordinator.SettingsReported(tank, s, prev);
  }

  /** Whenever there is data and the switch shows off, both alerts are off. */
  lemma OffSilencesAlerts(data: Option<Data>, a: BinarySensor.Alert)
    requires HasData(data) && !IsOn(data)
    ensures BinarySensor.IsOn(a, data) == Some(false)
  {
  }
}

=== FILE: wrappers.dfy ===
/** Optional values, standing for Python's "value or None" returns. */
module Wrappers {

  datatype Option<+T> = None | Some(value: T) {

    /** The wrapped value, or `default` when there is none. */
    function GetOr(default: T): T {
      match this
      case Some(v) => v
      case None => default
    }
  }
}
